=== FILE: README.md ===
# Pebble2d scene graph and asset loader, modelled in Dafny

Pebble2d is a small canvas engine with two parts: a tree of display objects and a batch asset loader. This project models both.

**The display-object tree.** The `DisplayObject` class and its subclasses live in `Pebble2d/Pebble2d.js`. The model stores the tree as an arena (`Scene.Store`), a map from node identity to node. Each node holds an optional `parent` reference and an ordered `children` array of identities. A JavaScript mutation becomes a function from the old store to the new one. `Scene.Valid` says that no reference dangles. Every tree operation keeps `Valid`.

The model covers the tree operations:

- `addChild`, `removeChild`, `add`, `remove` and `swapChildren`;
- the `layer` setter, with its stable sort of the parent's children;
- the `ObjectGrouper` (Group) overrides, which recompute a group's size after every change.

It covers the geometry:

- the live global position `gx`/`gy`, with `globalBounds`;
- the `put*` placement helpers;
- the `circular` view with `diameter` and `radius`.

It also covers `Pebble.render`. The canvas context is replaced by the trace of calls that the render walk makes (`Render.Op`). A flag records whether the walk finished or threw.

Some JavaScript behaviour is kept as written:

- `indexOf` gives -1 for a missing element, and `splice(-1, 1)` then removes the last element (`JsArray`).
- `removeChild` leaves the removed sprite's `parent` set.
- `calculateSize` keeps the old size when a group is empty.
- A sprite without a parent, or one with `shadow` set, makes `render` throw. A parentless sprite throws when its `parent.alpha` is read. A shadowed sprite throws at the misspelt context name in the shadow branch.
- A cyclic parent chain, which `addChild` does not prevent, makes `gx` and the walk recurse forever. So does a cycle through children arrays, such as a group inside its own `children`: the walk meets a sprite already on its recursion path. The model reads both as a thrown error.

**The batch loader.** `Pebble.AssetLoader` lives in `Pebble2d/Pebble-Assets-Plugin.js`. `load(sources)` sets `toLoad` to the number of sources. It then dispatches each source on the text after its last `.`, with exact matching against the four extension lists.

- An image or a sound is registered under its source and starts loading.
- A font appends an `@font-face` rule and calls the handler at once.
- A JSON file starts a request.
- Any other extension is only logged.

Every unit that finishes calls the shared handler. The handler increments `loaded`, and when `loaded` reaches `toLoad` it resets both to 0 and resolves.

Browser loading is not performed. A started load becomes a pending `Assets.Unit`, and an outside `Assets.Event` completes it. `Run` replays a sequence of events. The proofs show:

- a batch started on a loader whose `loaded` is 0, whose sources are all recognized and whose events are all good resolves at most once, and has resolved exactly when nothing is left in flight;
- on a loader whose `loaded` is 0, an unrecognized source means the batch never resolves. A failed JSON request does the same in a batch whose count is still exact: every source is pending or already counted. A stale `loaded` can still let such a batch resolve early;
- `loaded` is not reset when a new batch starts. A stale count therefore lets a batch resolve early, even while some of its images are still loading.

## Model

| member | source | states |
|---|---|---|
| JsArray.IndexOf | Pebble2d/Pebble2d.js:223 | `indexOf` finds the first occurrence, or gives -1 exactly when the element is absent |
| JsArray.LastIndexOf | Pebble2d/Pebble-Assets-Plugin.js:54 | the last occurrence, or -1 exactly when the element is absent (what `split(c).pop()` cuts at) |
| JsArray.SpliceOneShifts | Pebble2d/Pebble2d.js:223 | `splice(start, 1)` with a start inside the array leaves one element fewer: the slots before the start are kept and the ones after it move down by one. A start past the end changes nothing, and a negative start counts from the end |
| JsArray.SpliceAt | Pebble2d/Pebble2d.js:223 | splicing at a valid index removes exactly that element from the multiset and shortens the array by one |
| JsArray.SpliceIndexOf | Pebble2d/Pebble2d.js:223 | `splice(indexOf(x), 1)` removes one `x` when present; when `x` is absent it removes the last element, and from an empty array nothing |
| StableSort.SortByKeyCorrect | Pebble2d/Pebble2d.js:202 | the sort the layer setter uses gives an ascending permutation that keeps equal keys in their old order |
| StableSort.SortByKey | Pebble2d/Pebble2d.js:202 | the sort is a permutation: it keeps the multiset of elements |
| StableSort.StableSortUnique | Pebble2d/Pebble2d.js:202 | any two ascending arrays that keep ties in the same order as one input are equal: a stable sort's result is unique |
| Scene.NewDisplayObject | Pebble2d/Pebble2d.js:101-143 | the constructor's defaults: at the origin, opaque, visible, no parent, no children, layer 0, not circular, with neither `diameter` nor `radius` defined |
| Scene.NewStage | Pebble2d/Pebble2d.js:28-30 | `createStage` is a plain display object of the given size |
| Scene.NewRectangle | Pebble2d/Pebble2d.js:468-490 | a rectangle takes its size and position from the arguments |
| Scene.NewLine | Pebble2d/Pebble2d.js:539-549 | a line keeps the 0 × 0 box at the origin |
| Scene.NewText | Pebble2d/Pebble2d.js:561-575 | a text starts with a 0 × 0 box at its position |
| Scene.NewCircle | Pebble2d/Pebble2d.js:504-519 | a circle is circular, with a square box whose side is the diameter and a radius of half of it |
| Scene.SetCircular | Pebble2d/Pebble2d.js:371-410 | the setter acts only on a change of state and never touches the box. Either change removes any plain `diameter` or `radius` property: switching on replaces them with the accessors, and switching off deletes them |
| Scene.Diameter | Pebble2d/Pebble2d.js:378-380 | while circular, `diameter` reads the width. Otherwise it reads the plain property an earlier assignment created, or `undefined` |
| Scene.Radius | Pebble2d/Pebble2d.js:389-391 | while circular, `radius` is defined and is half the diameter. Otherwise it reads the plain property an earlier assignment created, or `undefined` |
| Scene.SetDiameter | Pebble2d/Pebble2d.js:381-384 | the assigned `diameter` always reads back. While circular it makes a square box of that side. Otherwise it creates a plain property and leaves the box and `radius` alone |
| Scene.SetRadius | Pebble2d/Pebble2d.js:392-395 | the assigned `radius` always reads back. While circular it makes a square box of twice that side. Otherwise it creates a plain property and leaves the box and `diameter` alone |
| Scene.CircularRoundTrip | Pebble2d/Pebble2d.js:376-410 | while circular the accessors read back what was written; switching off hides `diameter` and keeps the box |
| Scene.StrayDiameter | Pebble2d/Pebble2d.js:371-410 | before the sprite is circular, an assigned `diameter` is a plain value: it reads back but sizes nothing, and `circular = false` keeps it. `circular = true` replaces it with the width accessor, and switching off again leaves no `diameter` at all |
| Scene.HalfWidth | Pebble2d/Pebble2d.js:230-232 | two half widths make the width |
| Scene.HalfHeight | Pebble2d/Pebble2d.js:233-235 | two half heights make the height |
| Scene.CenterX | Pebble2d/Pebble2d.js:236-238 | the horizontal centre is equally far from both vertical edges |
| Scene.CenterY | Pebble2d/Pebble2d.js:239-241 | the vertical centre is equally far from both horizontal edges |
| Scene.GlobalBoundsTranslatesLocal | Pebble2d/Pebble2d.js:261-276 | `globalBounds` is `localBounds` (origin-anchored, with the size in the width and height fields) moved by the global position in all four fields, so the size fields become the far corner |
| Scene.IsEmpty | Pebble2d/Pebble2d.js:281-287 | `empty` holds exactly when there are no children |
| Scene.SetPosition | Pebble2d/Pebble2d.js:251-254 | `setPosition` changes this node's x and y and nothing else |
| Scene.PutCenter | Pebble2d/Pebble2d.js:299-303 | `b`'s centre lands on `a`'s centre plus the offsets; only `b`'s position changes |
| Scene.PutTop | Pebble2d/Pebble2d.js:305-309 | `b` is centred horizontally, with its bottom edge on `a`'s top edge (plus the offsets) |
| Scene.PutRight | Pebble2d/Pebble2d.js:311-315 | `b`'s left edge sits on `a`'s right edge, centred vertically (plus the offsets) |
| Scene.PutBottom | Pebble2d/Pebble2d.js:317-321 | `b` is centred horizontally, with its top edge on `a`'s bottom edge (plus the offsets) |
| Scene.PutLeft | Pebble2d/Pebble2d.js:323-327 | `b`'s right edge sits on `a`'s left edge, centred vertically (plus the offsets) |
| Scene.Gx | Pebble2d/Pebble2d.js:175-184 | at a root `gx` is the local x |
| Scene.Gy | Pebble2d/Pebble2d.js:185-191 | at a root `gy` is the local y |
| Scene.Ancestry | Pebble2d/Pebble2d.js:175-191 | the parent chain the recursion follows starts at the node, stays in the store and never repeats a node |
| Scene.GlobalIsChainSum | Pebble2d/Pebble2d.js:175-191 | the global position is the sum of the local positions along the whole parent chain |
| Scene.ChainDependsOnLinks | Pebble2d/Pebble2d.js:175-191 | rootedness and the parent chain depend on the parent links alone |
| Scene.GlobalThroughParent | Pebble2d/Pebble2d.js:175-191 | a child's global position is its local position plus its parent's global position in the same tree |
| Scene.MoveShiftsDescendants | Pebble2d/Pebble2d.js:175-191 | moving a node shifts the global position of exactly its descendants (itself included) by the same amount |
| Scene.GlobalBounds | Pebble2d/Pebble2d.js:269-276 | `globalBounds` starts at the global position, and its "width" and "height" fields hold the far corner, not the size |
| Hierarchy.MaxReach | Pebble2d/Pebble2d.js:636-650 | the running maximum over the children never falls below its start, bounds every reach and is attained or is the start |
| Hierarchy.Resized | Pebble2d/Pebble2d.js:628-655 | `calculateSize` changes only the width and height: to the extent of the children, at least 0, or nothing without children |
| Hierarchy.CalculateSize | Pebble2d/Pebble2d.js:628-655 | `calculateSize` keeps every node and leaves no dangling reference. It changes no node but the group, and of the group only the width and height. A group without children is left exactly as it was |
| Hierarchy.ResizedGroupIsSized | Pebble2d/Pebble2d.js:628-655 | after `calculateSize` a group's size is the maximum reach of its children, as measured in the new store |
| Hierarchy.Detach | Pebble2d/Pebble2d.js:617-626 | the Group's `removeChild` override keeps every node and leaves no dangling reference |
| Hierarchy.DetachEffect | Pebble2d/Pebble2d.js:617-626 | removing a child splices the array at `indexOf`, resizes a Group, keeps every other field of the container, including its look, its `circular` settings and its parent, and touches no other node |
| Hierarchy.RemoveChild | Pebble2d/Pebble2d.js:221-227 | `removeChild` succeeds exactly when the sprite's parent is the container, and otherwise throws `NotAChild` |
| Hierarchy.RemoveChildEffect | Pebble2d/Pebble2d.js:221-227 | a successful `removeChild` takes the sprite out (or the last child when it is missing from the array), leaves its `parent` set and touches no other node |
| Hierarchy.RemoveChildKeepsParent | Pebble2d/Pebble2d.js:221-227 | `removeChild` re-points no parent, not even the removed sprite's |
| Hierarchy.Unlink | Pebble2d/Pebble2d.js:209-212 | taking a sprite from its current parent keeps every node and leaves no dangling reference |
| Hierarchy.UnlinkEffect | Pebble2d/Pebble2d.js:207-212 | detaching from the current parent changes only that parent's children and size: every other field of the parent, and every other node, is kept |
| Hierarchy.Attach | Pebble2d/Pebble2d.js:213-216 | linking a sprite under a container keeps every node and leaves no dangling reference |
| Hierarchy.AttachEffect | Pebble2d/Pebble2d.js:606-615 | linking sets the parent, appends the sprite and resizes a Group. The sprite changes only its `parent`; the container keeps every field but its children, size and (when it is the sprite) parent; no other node changes |
| Hierarchy.AddChild | Pebble2d/Pebble2d.js:207-217 | `addChild` keeps every node and leaves no dangling reference |
| Hierarchy.AddChildLinks | Pebble2d/Pebble2d.js:207-217 | after `addChild` the sprite's parent is the container and the sprite is its last child |
| Hierarchy.AddChildAppends | Pebble2d/Pebble2d.js:207-217 | a sprite from elsewhere (or from nowhere) is appended to the array as it was |
| Hierarchy.AddChildMovesToEnd | Pebble2d/Pebble2d.js:207-217 | re-adding a child moves its first occurrence to the end |
| Hierarchy.ReAddKeepsChildren | Pebble2d/Pebble2d.js:207-217 | re-adding a child keeps the same multiset of children |
| Hierarchy.AddChildOldParent | Pebble2d/Pebble2d.js:210-212 | the old parent loses the sprite through its own `removeChild` |
| Hierarchy.AddChildFrame | Pebble2d/Pebble2d.js:207-217 | `addChild` re-points only the sprite's parent and touches no node but the container, the sprite and its old parent. A sprite that is not its own parent changes only its `parent`, and the container and the old parent keep every field but their children and size |
| Hierarchy.AddChildKeepsStrangers | Pebble2d/Pebble2d.js:207-217 | `addChild` leaves every node but the container, the sprite and its old parent as it was |
| Hierarchy.AddChildKeepsSprite | Pebble2d/Pebble2d.js:207-217 | the added sprite, unless it is its own parent, keeps its position, look and children and changes only its `parent` |
| Hierarchy.AddChildKeepsContainer | Pebble2d/Pebble2d.js:207-217 | the container keeps its position, look, parent and layer, and changes only its children and size |
| Hierarchy.AddChildOldParentKept | Pebble2d/Pebble2d.js:210-212 | the old parent keeps every field but its children and size |
| Hierarchy.AddChildSizes | Pebble2d/Pebble2d.js:606-615 | after `addChild` a Group is sized to its children and any other container keeps its size |
| Hierarchy.AddChildAdopts | Pebble2d/Pebble2d.js:207-217 | `addChild` sets the added sprite's parent |
| Hierarchy.AddChildKeepsParent | Pebble2d/Pebble2d.js:207-217 | `addChild` leaves the parent of every other node alone |
| Hierarchy.AddChildKeepsKinds | Pebble2d/Pebble2d.js:207-217 | `addChild` never changes what kind of object a node is |
| Hierarchy.Add | Pebble2d/Pebble2d.js:348-350 | `add` keeps every node and leaves no dangling reference |
| Hierarchy.AddAdopts | Pebble2d/Pebble2d.js:348-350 | after `add` every listed sprite has the container as its parent |
| Hierarchy.AddKeepsOtherParents | Pebble2d/Pebble2d.js:348-350 | `add` changes the parent of no unlisted node |
| Hierarchy.AddAppends | Pebble2d/Pebble2d.js:348-350 | `add` of distinct sprites that are not yet children appends them in order |
| Hierarchy.AddSizesGroup | Pebble2d/Pebble2d.js:348-350 | a Group that received at least one sprite ends sized to its children |
| Hierarchy.AddKeepsKinds | Pebble2d/Pebble2d.js:348-350 | `add` never changes what kind of object a node is |
| Hierarchy.Remove | Pebble2d/Pebble2d.js:351-353 | `remove` keeps every node and leaves no dangling reference, whether or not it throws |
| Hierarchy.RemoveKeepsParent | Pebble2d/Pebble2d.js:351-353 | `remove` re-points no parent |
| Hierarchy.FirstStranger | Pebble2d/Pebble2d.js:351-353 | the first listed sprite whose parent is not the container, or none exactly when all are its children |
| Hierarchy.RemoveThrowsFirstStranger | Pebble2d/Pebble2d.js:351-353 | `remove` throws exactly the `NotAChild` error of the first stranger, or nothing |
| Hierarchy.RemoveThrowsIff | Pebble2d/Pebble2d.js:351-353 | `remove` finishes without throwing exactly when every listed sprite is a child |
| Hierarchy.RemoveNamesFirstStranger | Pebble2d/Pebble2d.js:351-353 | a stranger behind only children is the one the error names, since earlier removals have already been made |
| Hierarchy.RemoveTakesOut | Pebble2d/Pebble2d.js:351-353 | removing distinct children that are in the array takes exactly them out |
| Hierarchy.SwapSlots | Pebble2d/Pebble2d.js:336-341 | the two slots are exchanged, each child records the other's index, and no parent or other node changes |
| Hierarchy.SwapChildren | Pebble2d/Pebble2d.js:332-345 | `swapChildren` succeeds exactly when both are in the array, and otherwise throws |
| Hierarchy.SwapChildrenSlots | Pebble2d/Pebble2d.js:332-345 | the first occurrences are exchanged (a self-swap leaves the array alone), other slots are kept, and so is the multiset |
| Hierarchy.SwapChildrenFrame | Pebble2d/Pebble2d.js:332-345 | `childIndex` records the exchanged indices; no parent and no other node changes; when neither child is the container itself, the container changes only its children and each child only its `childIndex` |
| Hierarchy.SwapChildrenArray | Pebble2d/Pebble2d.js:340-341 | the array after a swap: slot of `c1` gets `c2`, then slot of `c2` gets `c1` |
| Hierarchy.SwapChildrenTwice | Pebble2d/Pebble2d.js:332-345 | swapping the same two children twice restores an array without repeats |
| Hierarchy.Relayered | Pebble2d/Pebble2d.js:197-199 | writing the layer keeps every node and leaves no dangling reference |
| Hierarchy.SetLayer | Pebble2d/Pebble2d.js:197-204 | the layer setter keeps every node and leaves no dangling reference |
| Hierarchy.SetLayerLayers | Pebble2d/Pebble2d.js:197-204 | the layer setter re-points no parent and changes no other node's layer. The node changes only its layer (and its children, if it is its own parent), and its parent changes only its children |
| Hierarchy.SetLayerKeepsOthers | Pebble2d/Pebble2d.js:197-204 | only the parent's array is reordered, and no other node changes |
| Hierarchy.SetLayerSorts | Pebble2d/Pebble2d.js:197-204 | the parent's children end up as the unique stable ascending sort by layer of the same multiset |
| Hierarchy.NewGroup | Pebble2d/Pebble2d.js:597-604 | the constructor adds exactly one new node and leaves a valid tree |
| Hierarchy.NewGroupChildren | Pebble2d/Pebble2d.js:597-604 | a group of distinct sprites has exactly those sprites as children, in order, each with the group as parent |
| Hierarchy.NewGroupSize | Pebble2d/Pebble2d.js:597-604 | a group's size is the extent of its sprites' boxes, or 0 × 0 with none |
| Render.WalkNests | Pebble2d/Pebble2d.js:40-77 | one sprite's walk never restores more than it saved, and a finished walk balances every save |
| Render.WalkAllNests | Pebble2d/Pebble2d.js:71-74 | the same for the children loop, which stops at the first throw |
| Render.RenderNests | Pebble2d/Pebble2d.js:31-39 | a frame starts with the clear, and a finished frame leaves the context stack as it found it |
| Render.WalkDrawsOnlyShown | Pebble2d/Pebble2d.js:41-67 | only visible sprites that pass the culling test, lie on a finite parent chain and have a `render` method draw |
| Render.SpriteDrawsIff | Pebble2d/Pebble2d.js:40-67 | a sprite's own draw call is made exactly when it is visible, passes the culling test, has a finite parent chain, is not already on the recursion path, has a parent and no `shadow`, and its class has a `render` method |
| Render.SkippedSpriteIsSilent | Pebble2d/Pebble2d.js:41-46 | a hidden or culled sprite and its whole subtree make no call |
| Render.FaultingSpriteThrows | Pebble2d/Pebble2d.js:55-63 | a shown sprite without a parent, or with `shadow`, throws after save, translate and rotate, and never draws |
| Render.DrawnSpriteFrame | Pebble2d/Pebble2d.js:47-67 | a drawn sprite has a parent and no shadow; its alpha is its own times its immediate parent's only |
| Render.StyledDrawsLast | Pebble2d/Pebble2d.js:49-67 | the calls after a drawing sprite's save end with its own draw call and hold no other draw |
| Render.OwnDrawComesFirst | Pebble2d/Pebble2d.js:47-75 | pre-order: a sprite that draws does so before anything in its subtree, since no draw call precedes its own in its walk |
| Render.WalkAllIsLoop | Pebble2d/Pebble2d.js:71-73 | the children loop is each child's own walk appended in turn, stopping after the first that throws |
| Render.LoopSplits | Pebble2d/Pebble2d.js:71-73 | such a loop, once past its first `j` walks, is the loop over those followed by the loop over the rest |
| Render.LoopIncludes | Pebble2d/Pebble2d.js:71-73 | a loop that completes holds every draw call of every trace it looped over |
| Render.SplitLoop | Pebble2d/Pebble2d.js:71-73 | the children loop, once it gets past its first `j` children, is the loop over those followed by the loop over the rest |
| Render.OkLoopIncludes | Pebble2d/Pebble2d.js:71-73 | a children loop that completes holds every draw call of every child's walk |
| Render.SiblingsDrawInOrder | Pebble2d/Pebble2d.js:71-73 | siblings draw in array order, the order the layer setter sorts: once the loop reaches a sibling, its trace splits into the loop over the earlier siblings, which holds all their draws, and a rest that begins with that sibling's whole walk |
| Paths.AfterLast | Pebble2d/Pebble-Assets-Plugin.js:54 | `split(c).pop()` is the suffix after the last `c`, or the whole text |
| Paths.AfterLastJoined | Pebble2d/Pebble-Assets-Plugin.js:54 | the text after a last separator is exactly what followed it |
| Paths.BeforeFirst | Pebble2d/Pebble-Assets-Plugin.js:122 | `split(c)[0]` is the prefix before the first `c`, or the whole text |
| Paths.BeforeFirstJoined | Pebble2d/Pebble-Assets-Plugin.js:122 | the text before a first separator is exactly what preceded it |
| Paths.Extension | Pebble2d/Pebble-Assets-Plugin.js:54 | the extension is a dot-free suffix of the source, or the whole source when it has no dot |
| Paths.ExtensionOfJoined | Pebble2d/Pebble-Assets-Plugin.js:54 | `stem.ext` has extension `ext`, whatever dots the stem holds |
| Paths.Classify | Pebble2d/Pebble-Assets-Plugin.js:9-12 | the `else if` chain: the first of image, font, JSON, audio whose list holds the extension exactly |
| Paths.UpperCaseUnrecognized | Pebble2d/Pebble-Assets-Plugin.js:58-76 | matching is case-sensitive: an extension with an upper-case letter is never recognized |
| Paths.FontFamily | Pebble2d/Pebble-Assets-Plugin.js:122 | the family name holds no `/` and no `.` |
| Paths.FontFamilyOfPath | Pebble2d/Pebble-Assets-Plugin.js:122 | a font at `dir/name.rest` gets the family `name` |
| Paths.BaseUrl | Pebble2d/Pebble-Assets-Plugin.js:174 | the directory part and the file name rejoin to the source, and the directory ends in `/` or is empty |
| Paths.BaseUrlOfPath | Pebble2d/Pebble-Assets-Plugin.js:174 | the directory of `dir + file` is `dir` |
| Assets.Handler | Pebble2d/Pebble-Assets-Plugin.js:25-41 | the handler resolves exactly when this call makes `loaded` reach `toLoad` and then resets both, and otherwise only counts |
| Assets.DispatchAs | Pebble2d/Pebble-Assets-Plugin.js:52-76 | the registry gains exactly the source (an image or sound asset), and no other key changes. One unit for that source is added to those in flight, except for a font or an unrecognized source. Only a font adds a rule and moves the counters. An unrecognized source changes nothing |
| Assets.DispatchAllByKinds | Pebble2d/Pebble-Assets-Plugin.js:52-96 | dispatching by extension is dispatching by the precomputed classes |
| Assets.RegisterFrames | Pebble2d/Pebble-Assets-Plugin.js:192-203 | each frame key maps to its frame tagged with the atlas image, and other keys are kept |
| Assets.FontRuleFamily | Pebble2d/Pebble-Assets-Plugin.js:120-132 | a font adds one rule whose family is its file name without extension, and registers nothing |
| Assets.FontCountsAtOnce | Pebble2d/Pebble-Assets-Plugin.js:131 | a font's dispatch moves the counters exactly as one handler call |
| Assets.JsonRegisteredUnderSource | Pebble2d/Pebble-Assets-Plugin.js:148-155 | a successful JSON response is registered under its source |
| Assets.AtlasImageInSameDirectory | Pebble2d/Pebble-Assets-Plugin.js:159-181 | an atlas loads its `meta.image` from its own directory, and the handler waits for that image |
| Assets.AtlasRegistersFrames | Pebble2d/Pebble-Assets-Plugin.js:184-203 | the loaded atlas image and all its frames are registered, and no other key changes |
| Assets.LoadedCallsHandler | Pebble2d/Pebble-Assets-Plugin.js:104 | a pending image, sound or atlas image that loads makes exactly one handler call |
| Assets.ResponseCallsHandler | Pebble2d/Pebble-Assets-Plugin.js:146-166 | a good JSON response calls the handler, or hands its call to the atlas image it starts |
| Assets.FailureSkipsHandler | Pebble2d/Pebble-Assets-Plugin.js:148 | a failed request or a parse error never reaches the handler |
| Assets.DispatchCounts | Pebble2d/Pebble-Assets-Plugin.js:52-76 | one dispatch keeps the batch count, and an unrecognized source becomes a missing call |
| Assets.DispatchAllCounts | Pebble2d/Pebble-Assets-Plugin.js:52-96 | dispatching a whole list keeps the count, with one missing call per unrecognized source |
| Assets.StartBatchCounts | Pebble2d/Pebble-Assets-Plugin.js:47-48 | on a loader with nothing in flight and `loaded` 0, after `load` starts every source is pending, already counted or missing for good |
| Assets.RecognizedBatchStarts | Pebble2d/Pebble-Assets-Plugin.js:47-76 | on a loader whose `loaded` is 0, a batch of recognized sources starts with no handler call missing |
| Assets.HandlerCounts | Pebble2d/Pebble-Assets-Plugin.js:25-41 | one handler call for a finished unit keeps the count, or finishes the batch |
| Assets.CompleteGoodCounts | Pebble2d/Pebble-Assets-Plugin.js:146-166 | a good completion keeps the count or finishes the batch |
| Assets.CompleteFailedCounts | Pebble2d/Pebble-Assets-Plugin.js:148 | a failed pending request adds a missing call |
| Assets.CompleteCounts | Pebble2d/Pebble-Assets-Plugin.js:146-212 | any completion keeps the count, adds a missing call, or finishes a batch with nothing missing |
| Assets.IdleIgnoresEvents | Pebble2d/Pebble-Assets-Plugin.js:25-41 | with nothing in flight no event changes the loader |
| Assets.MissingNeverResolves | Pebble2d/Pebble-Assets-Plugin.js:30 | once a handler call is missing, no events can resolve the batch |
| Assets.GoodRunCounts | Pebble2d/Pebble-Assets-Plugin.js:16-98 | good events keep a batch counting until it finishes |
| Assets.BatchResolvesWhenDrained | Pebble2d/Pebble-Assets-Plugin.js:16-98 | on a loader whose `loaded` is 0, a batch of recognized sources with good events resolves at most once, and has resolved exactly when nothing is in flight |
| Assets.UnrecognizedSourceStalls | Pebble2d/Pebble-Assets-Plugin.js:73-76 | on a loader with nothing in flight and `loaded` 0, a batch with an unrecognized source never resolves, whatever events follow |
| Assets.FailedRequestStalls | Pebble2d/Pebble-Assets-Plugin.js:148-166 | in a batch whose count is exact, with no source missing, a pending JSON request that fails means the batch never resolves |
| Assets.EmptyBatchStalls | Pebble2d/Pebble-Assets-Plugin.js:48 | an empty batch never resolves |
| Assets.StaleCountResolvesEarly | Pebble2d/Pebble-Assets-Plugin.js:26-48 | `load` does not reset `loaded`, so one stale count lets a two-font batch resolve after its first font |
| Assets.StaleCountResolvesWithImagePending | Pebble2d/Pebble-Assets-Plugin.js:25-48 | with a stale `loaded` of 1, a batch of two images resolves when the first image loads, while the second is still in flight |

## Left out

- `Pebble.createCanvas` (device pixel ratio, DOM styling) and the `clearRect` size are browser I/O. The frame is given a width and height instead.
- `render` reads a global `stage`. The model passes the stage node as a parameter.
- The shape classes' own `render` bodies (paths, fills, strokes, masks) appear only as one `Draw` call each. Paint attributes are not carried.
- A text's first `render` measures itself and writes its width and height. That needs font metrics, so the walk does not change the store.
- Rotation, scale, alpha and pivot values appear only as call arguments. Real numbers stand in for JavaScript doubles, so rounding is not modelled.
- The `shadow` branch is modelled only as the point where the walk throws. The shadow settings it would write are never reached.
- `blendMode` is a string, and the empty string stands for the falsy `undefined`.
- `layer` is an integer. A non-numeric layer, which would make the comparator return `NaN`, is not modelled.
- `childIndex` is written only by `swapChildren`, as in the source. No other operation keeps it up to date.
- The static `Pebble.Group(...)` factory passes its rest array as ONE argument to the `ObjectGrouper` constructor. That makes the array object itself the only child. An array is not a display object, so only the constructor (`Hierarchy.NewGroup`) is modelled.
- `draggable`, `interactive` and `makeInteractive` need mouse or touch input. Frames and animation (`currentFrame`), velocity, `previousX`/`previousY` and the `position` record getter carry no tree logic. None of these are modelled.
- Verbose `console.log` output and the "File type not recognized" message are logging only.
- Image, sound, XHR and atlas-image loading are not performed. Each started load is a pending unit, and a `Loaded` or `Response` event finishes it in any order. `makeSound` is not part of this model.
- A JSON document is reduced to `frames` and `meta.image`. Parsing is only a success or a failure. The `name` property written onto it is implied by the registry key.
- The registry is a map of its own. In the source it is the loader object itself, so an asset key such as `load` or `toLoad` would overwrite a method or a counter. That collision is not modelled.
- A frame shares its object with the parsed JSON, and the source writes `.source` onto that shared object. The model registers a separate frame value tagged with its image instead.
- `Object.keys` order only affects which frame wins on a duplicate key, and a map has none.
- The promise is modelled by `resolves`, which counts calls of `resolve`. Only the first call is observable.
- `StartBatch` is considered only with nothing in flight. Overlapping batches share the counters and handler in ways the model does not follow.
- `main.js` and `index.js` are example pages that only call the engine, and are not part of this model.
- Hierarchy.DetachEffect: `SizedAfter` promises the recomputed size only for a Group that is not its own child. A group inside its own array is sized against the store before its own update, and the model does not pin that value.
- Hierarchy.RemoveChildEffect: the size claim is the same `SizedAfter` as for `Hierarchy.DetachEffect`, and just as weak for a group that contains itself.
- Hierarchy.UnlinkEffect: the size claim is the same `SizedAfter`, and just as weak for a group that contains itself.
- Hierarchy.AttachEffect: the size claim is the same `SizedAfter`, and just as weak for a group that contains itself.
- Hierarchy.AddChildSizes: the size claim is the same `SizedAfter`, and just as weak for a group that contains itself.
- Hierarchy.AddSizesGroup: the size claim is the same `SizedAfter`, and just as weak for a group that contains itself.
- Hierarchy.ResizedGroupIsSized: the size claim is the same `SizedAfter`, and just as weak for a group that contains itself.

=== FILE: assets.dfy ===
/**
 * `Pebble.AssetLoader`: the batch bookkeeping of `load`. A batch counts
 * its sources into `toLoad`; every unit that finishes calls the shared
 * handler, which bumps `loaded` and resolves the batch when the two
 * counters meet. Image, sound, XHR and atlas-image loads are not
 * performed: each is a pending unit that an outside completion event
 * finishes (or, for a JSON request, fails).
 */
module Assets {
  import opened Wrappers
  import opened Paths

  /** The size and position record of one atlas frame (opaque here). */
  datatype FrameData = FrameData(x: real, y: real, w: real, h: real)

  /** The `meta` object of a Texture Packer file; `image` may be missing. */
  datatype Meta = Meta(image: Option<string>)

  /** A parsed JSON file, reduced to the two properties the loader reads. */
  datatype JsonDoc = JsonDoc(frames: Option<map<string, FrameData>>, meta: Option<Meta>)

  /** What the registry (`this[key]`) holds. */
  datatype Asset =
    | ImageAsset(src: string)
    | SoundAsset(src: string)
    | JsonAsset(name: string, doc: JsonDoc)
    | FrameAsset(frame: FrameData, image: string)   // the frame with its `.source` image

  /** A load that has been started and has not finished. */
  datatype Unit =
    | ImageLoad(src: string)
    | SoundLoad(src: string)
    | JsonFetch(src: string)
    | AtlasLoad(imageSource: string, frames: map<string, FrameData>)

  /** An `@font-face` rule appended to the document: `url` under the family its file name gives. */
  datatype FontFace = FontFace(url: string) {
    function Family(): string {
      FontFamily(url)
    }
  }

  /**
   * The loader object. `resolves` counts the calls of the current batch's
   * `resolve`, which only the first one makes observable.
   */
  datatype Loader = Loader(
    toLoad: int,
    loaded: int,
    registry: map<string, Asset>,
    pending: multiset<Unit>,
    fonts: seq<FontFace>,
    resolves: nat)

  /** A new `AssetLoader`. */
  const Fresh: Loader := Loader(0, 0, map[], multiset{}, [], 0)

  /**
   * `loadHandler`: count one more loaded unit; when the counters meet,
   * reset both to 0 and resolve.
   */
  function Handler(ld: Loader): (r: Loader)
    ensures r.resolves == ld.resolves + 1 <==> ld.loaded + 1 == ld.toLoad
    ensures ld.loaded + 1 == ld.toLoad ==> r.toLoad == 0 && r.loaded == 0
    ensures ld.loaded + 1 != ld.toLoad ==> r.toLoad == ld.toLoad && r.loaded == ld.loaded + 1 && r.resolves == ld.resolves
    ensures r.registry == ld.registry && r.pending == ld.pending && r.fonts == ld.fonts
  {
    var n := ld.loaded + 1;
    if ld.toLoad == n then ld.(toLoad := 0, loaded := 0, resolves := ld.resolves + 1)
    else ld.(loaded := n)
  }

  /**
   * One step of `sources.forEach`, once the source's class is known:
   * images and sounds are registered under their source at once and start
   * loading; a font's rule is appended and the handler runs synchronously;
   * JSON starts a request; anything else is only logged.
   */
  function DispatchAs(ld: Loader, source: string, kind: FileClass): (r: Loader)
    // the registry gains exactly the source, for an image or a sound
    ensures r.registry.Keys == ld.registry.Keys + (if kind == ImageFile || kind == AudioFile then {source} else {})
    ensures forall k :: k in ld.registry && k != source ==> r.registry[k] == ld.registry[k]
    ensures kind == ImageFile ==> r.registry[source].ImageAsset? && r.registry[source].src == source
    ensures kind == AudioFile ==> r.registry[source].SoundAsset? && r.registry[source].src == source
    // one more unit in flight, of the source's class, unless it is a font or unrecognized
    ensures ld.pending <= r.pending
    ensures |r.pending| == |ld.pending| + (if kind == FontFile || kind == Unrecognized then 0 else 1)
    ensures forall u :: u in r.pending && u !in ld.pending ==>
              u == ImageLoad(source) || u == SoundLoad(source) || u == JsonFetch(source)
    // only a font counts at once, and only a font adds a rule
    ensures kind != FontFile ==>
              r.toLoad == ld.toLoad && r.loaded == ld.loaded && r.resolves == ld.resolves && r.fonts == ld.fonts
    ensures kind == FontFile ==> r.fonts == ld.fonts + [FontFace(source)]
    ensures kind == Unrecognized ==> r == ld
  {
    match kind
    case ImageFile =>
      ld.(registry := ld.registry[source := ImageAsset(source)], pending := ld.pending + multiset{ImageLoad(source)})
    case FontFile =>
      Handler(ld.(fonts := ld.fonts + [FontFace(source)]))
    case JsonFile =>
      ld.(pending := ld.pending + multiset{JsonFetch(source)})
    case AudioFile =>
      ld.(registry := ld.registry[source := SoundAsset(source)], pending := ld.pending + multiset{SoundLoad(source)})
    case Unrecognized =>
      ld
  }

  /** One step of `sources.forEach`, dispatching on the source's extension. */
  function Dispatch(ld: Loader, source: string): Loader {
    DispatchAs(ld, source, Classify(source))
  }

  function DispatchAll(ld: Loader, sources: seq<string>): (r: Loader)
    decreases |sources|
  {
    if sources == [] then ld else DispatchAll(Dispatch(ld, sources[0]), sources[1..])
  }

  /** The classes of `sources`, in order. */
  function Kinds(sources: seq<string>): (kinds: seq<FileClass>)
    ensures |kinds| == |sources|
    ensures forall i :: 0 <= i < |sources| ==> kinds[i] == Classify(sources[i])
  {
    seq(|sources|, i requires 0 <= i < |sources| => Classify(sources[i]))
  }

  /** `DispatchAll` with the classes supplied alongside the sources. */
  function DispatchAllAs(ld: Loader, sources: seq<string>, kinds: seq<FileClass>): (r: Loader)
    requires |kinds| == |sources|
    decreases |sources|
  {
    if sources == [] then ld else DispatchAllAs(DispatchAs(ld, sources[0], kinds[0]), sources[1..], kinds[1..])
  }

  lemma {:induction false} DispatchAllByKinds(ld: Loader, sources: seq<string>)
    ensures DispatchAll(ld, sources) == DispatchAllAs(ld, sources, Kinds(sources))
    decreases |sources|
  {
    if sources != [] {
      var ks := Kinds(sources);
      assert ks[1..] == Kinds(sources[1..]);
      DispatchAllByKinds(Dispatch(ld, sources[0]), sources[1..]);
    }
  }

  /**
   * `load(sources)`: `toLoad` becomes the number of sources, recognized or
   * not; `loaded` is left as it is. Only a loader with nothing in flight
   * is considered.
   */
  function StartBatch(ld: Loader, sources: seq<string>): (r: Loader)
    requires ld.pending == multiset{}
  {
    DispatchAll(ld.(toLoad := |sources|, resolves := 0), sources)
  }

  /** The outcome of a pending unit, as the browser reports it. */
  datatype Event =
    | Loaded(unit: Unit)                                    // an image, sound or atlas image finished
    | Response(src: string, status: int, body: Option<JsonDoc>)  // `body` is `None` when `JSON.parse` throws

  /** Every frame key maps to its frame, tagged with the atlas image. */
  function RegisterFrames(reg: map<string, Asset>, frames: map<string, FrameData>, image: string): (r: map<string, Asset>)
    ensures r.Keys == reg.Keys + frames.Keys
    ensures forall k :: k in frames ==> r[k] == FrameAsset(frames[k], image)
    ensures forall k :: k in reg && k !in frames ==> r[k] == reg[k]
  {
    reg + map k | k in frames :: FrameAsset(frames[k], image)
  }

  /** `baseUrl + file.meta.image`; a missing `image` concatenates as the text `undefined`. */
  function AtlasImageSource(source: string, meta: Meta): string {
    BaseUrl(source) + (match meta.image case Some(name) => name case None => "undefined")
  }

  /**
   * One completion event. Events for units that are not pending change
   * nothing. A JSON response with another status than 200, or whose text
   * does not parse, never reaches the handler; nor does an atlas without
   * `meta` (reading `meta.image` throws after the file was registered).
   */
  function Complete(ld: Loader, ev: Event): (r: Loader)
  {
    match ev
    case Loaded(u) =>
      if u !in ld.pending || u.JsonFetch? then ld
      else
        var ld1 := ld.(pending := ld.pending - multiset{u});
        if u.AtlasLoad? then
          Handler(ld1.(registry := RegisterFrames(ld1.registry[u.imageSource := ImageAsset(u.imageSource)], u.frames, u.imageSource)))
        else Handler(ld1)
    case Response(src, status, body) =>
      if JsonFetch(src) !in ld.pending then ld
      else
        var ld1 := ld.(pending := ld.pending - multiset{JsonFetch(src)});
        if status != 200 || body.None? then ld1
        else
          var doc := body.value;
          var ld2 := ld1.(registry := ld1.registry[src := JsonAsset(src, doc)]);
          if doc.frames.None? then Handler(ld2)
          else if doc.meta.None? then ld2
          else ld2.(pending := ld2.pending + multiset{AtlasLoad(AtlasImageSource(src, doc.meta.value), doc.frames.value)})
  }

  function Run(ld: Loader, evs: seq<Event>): (r: Loader)
    decreases |evs|
  {
    if evs == [] then ld else Run(Complete(ld, evs[0]), evs[1..])
  }

  // ---------------------------------------------------------------------
  // Registry keys
  // ---------------------------------------------------------------------

  /** A font `dir/name.rest` adds one rule, whose family is `name`, and counts at once. */
  lemma FontRuleFamily(ld: Loader, dir: string, name: string, rest: string)
    requires '/' !in name && '.' !in name && '/' !in rest
    requires dir == [] || dir[|dir| - 1] == '/'
    requires Classify(dir + name + "." + rest) == FontFile
    ensures var src := dir + name + "." + rest;
      var r := Dispatch(ld, src);
      && r.fonts == ld.fonts + [FontFace(src)]
      && r.fonts[|r.fonts| - 1].Family() == name
      && r.registry == ld.registry
  {
    FontFamilyOfPath(dir, name, rest);
  }

  /** A successful JSON response is registered under its source, whatever else happens. */
  lemma JsonRegisteredUnderSource(ld: Loader, src: string, doc: JsonDoc)
    requires JsonFetch(src) in ld.pending
    ensures Complete(ld, Response(src, 200, Some(doc))).registry[src] == JsonAsset(src, doc)
  {
  }

  /**
   * An atlas `dir/file.json` whose `meta.image` is `name` loads the image
   * `dir/name`, and nothing reaches the handler until that image loads.
   */
  lemma AtlasImageInSameDirectory(ld: Loader, dir: string, file: string, frames: map<string, FrameData>, name: string)
    requires '/' !in file && (dir == [] || dir[|dir| - 1] == '/')
    requires JsonFetch(dir + file) in ld.pending
    ensures var r := Complete(ld, Response(dir + file, 200, Some(JsonDoc(Some(frames), Some(Meta(Some(name)))))));
      && AtlasLoad(dir + name, frames) in r.pending
      && r.loaded == ld.loaded && r.toLoad == ld.toLoad && r.resolves == ld.resolves
  {
    BaseUrlOfPath(dir, file);
  }

  /**
   * When the atlas image loads, the image is registered under its path and
   * every frame under its own key, pointing at that image (a frame key
   * equal to the image path wins); no other key changes.
   */
  lemma AtlasRegistersFrames(ld: Loader, image: string, frames: map<string, FrameData>)
    requires AtlasLoad(image, frames) in ld.pending
    ensures var r := Complete(ld, Loaded(AtlasLoad(image, frames)));
      && r.registry.Keys == ld.registry.Keys + {image} + frames.Keys
      && (image !in frames ==> r.registry[image] == ImageAsset(image))
      && (forall k :: k in frames ==> r.registry[k] == FrameAsset(frames[k], image))
      && (forall k :: k in ld.registry && k != image && k !in frames ==> r.registry[k] == ld.registry[k])
  {
  }

  // ---------------------------------------------------------------------
  // Counting a batch
  // ---------------------------------------------------------------------

  /**
   * A batch not yet resolved, in which `missing` handler calls will never
   * come (unrecognized sources, failed requests) besides the ones the
   * pending units owe.
   */
  ghost predicate Counting(ld: Loader, missing: nat) {
    && ld.resolves == 0
    && 0 <= ld.loaded < ld.toLoad
    && ld.toLoad == ld.loaded + |ld.pending| + missing
  }

  /** A batch that resolved exactly once, with both counters back at 0 and nothing in flight. */
  ghost predicate Finished(ld: Loader) {
    ld.resolves == 1 && ld.pending == multiset{} && ld.toLoad == 0 && ld.loaded == 0
  }

  /** How many of the classes are `Unrecognized`. */
  function Unknown(kinds: seq<FileClass>): nat {
    multiset(kinds)[Unrecognized]
  }

  /** One dispatch keeps the count; a font can finish the batch only when nothing else is owed. */
  lemma DispatchCounts(ld: Loader, source: string, kind: FileClass, more: nat)
    requires Counting(ld, 1 + more)
    ensures var r := DispatchAs(ld, source, kind);
      var u := if kind == Unrecognized then 1 else 0;
      || Counting(r, more + u)
      || (Finished(r) && more == 0 && u == 0)
  {
  }

  /**
   * Dispatching keeps the count: every recognized source is either still
   * pending or already counted, every unrecognized one is missing for
   * good. The batch can only resolve during dispatch (all fonts) when
   * nothing is missing.
   */
  lemma {:induction false} DispatchAllCounts(ld: Loader, sources: seq<string>, kinds: seq<FileClass>, missing: nat)
    requires |kinds| == |sources|
    requires Counting(ld, |sources| + missing)
    ensures var r := DispatchAllAs(ld, sources, kinds);
      || Counting(r, missing + Unknown(kinds))
      || (Finished(r) && missing + Unknown(kinds) == 0)
    decreases |sources|
  {
    if sources != [] {
      var ld1 := DispatchAs(ld, sources[0], kinds[0]);
      var rest := sources[1..];
      var u := if kinds[0] == Unrecognized then 1 else 0;
      assert kinds == [kinds[0]] + kinds[1..];
      assert Unknown(kinds) == u + Unknown(kinds[1..]);
      var r := DispatchAllAs(ld1, rest, kinds[1..]);
      assert DispatchAllAs(ld, sources, kinds) == r;
      DispatchCounts(ld, sources[0], kinds[0], |rest| + missing);
      if Finished(ld1) {
        assert rest == [] && missing + u == 0;
        assert r == ld1;
      } else {
        DispatchAllCounts(ld1, rest, kinds[1..], missing + u);
      }
    }
  }

  /** A batch's dispatch, counted: `Unknown` handler calls are missing for good. */
  lemma StartBatchCounts(ld: Loader, sources: seq<string>)
    requires ld.pending == multiset{} && ld.loaded == 0 && sources != []
    ensures var r := StartBatch(ld, sources);
      var n := Unknown(Kinds(sources));
      Counting(r, n) || (Finished(r) && n == 0)
  {
    var ld0 := ld.(toLoad := |sources|, resolves := 0);
    DispatchAllByKinds(ld0, sources);
    DispatchAllCounts(ld0, sources, Kinds(sources), 0);
  }

  /** A good event: anything but a JSON response that cannot reach the handler. */
  predicate Good(ev: Event) {
    ev.Response? ==> ev.status == 200 && ev.body.Some? && (ev.body.value.frames.Some? ==> ev.body.value.meta.Some?)
  }

  /** Taking one pending unit out shrinks the pending count by one. */
  lemma TakeOne(m: multiset<Unit>, u: Unit)
    requires u in m
    ensures |m - multiset{u}| == |m| - 1
  {
    assert m == (m - multiset{u}) + multiset{u};
  }

  /** A pending image, sound or atlas image that loads makes exactly one handler call. */
  lemma LoadedCallsHandler(ld: Loader, u: Unit)
    requires u in ld.pending && !u.JsonFetch?
    ensures var r := Complete(ld, Loaded(u));
      var h := Handler(ld.(pending := ld.pending - multiset{u}));
      r.toLoad == h.toLoad && r.loaded == h.loaded && r.resolves == h.resolves && r.pending == h.pending
  {
  }

  /**
   * A pending JSON request that succeeds either makes its handler call
   * (plain JSON) or hands it over to the atlas image it starts.
   */
  lemma ResponseCallsHandler(ld: Loader, src: string, doc: JsonDoc)
    requires JsonFetch(src) in ld.pending && (doc.frames.Some? ==> doc.meta.Some?)
    ensures var r := Complete(ld, Response(src, 200, Some(doc)));
      var ld1 := ld.(pending := ld.pending - multiset{JsonFetch(src)});
      var h := Handler(ld1);
      && (doc.frames.None? ==>
            r.toLoad == h.toLoad && r.loaded == h.loaded && r.resolves == h.resolves && r.pending == h.pending)
      && (doc.frames.Some? ==>
            r.toLoad == ld.toLoad && r.loaded == ld.loaded && r.resolves == ld.resolves &&
            r.pending == ld1.pending + multiset{AtlasLoad(AtlasImageSource(src, doc.meta.value), doc.frames.value)})
  {
  }

  /** A pending JSON request that fails only leaves the pending set. */
  lemma FailureSkipsHandler(ld: Loader, ev: Event)
    requires !Good(ev) && JsonFetch(ev.src) in ld.pending
    ensures var r := Complete(ld, ev);
      && r.toLoad == ld.toLoad && r.loaded == ld.loaded && r.resolves == ld.resolves
      && r.pending == ld.pending - multiset{JsonFetch(ev.src)}
  {
    var ld1 := ld.(pending := ld.pending - multiset{JsonFetch(ev.src)});
    if ev.status != 200 || ev.body.None? {
      assert Complete(ld, ev) == ld1;
    } else {
      assert Complete(ld, ev) == ld1.(registry := ld1.registry[ev.src := JsonAsset(ev.src, ev.body.value)]);
    }
  }

  /** One handler call, after one unit left the pending set, keeps the count. */
  lemma HandlerCounts(ld: Loader, missing: nat)
    requires ld.resolves == 0 && 0 <= ld.loaded < ld.toLoad
    requires ld.toLoad == ld.loaded + 1 + |ld.pending| + missing
    ensures var h := Handler(ld);
      Counting(h, missing) || (Finished(h) && missing == 0)
  {
  }

  /** A good completion hands its handler call over (to the handler, or to the atlas image). */
  lemma CompleteGoodCounts(ld: Loader, ev: Event, missing: nat)
    requires Counting(ld, missing) && Good(ev)
    ensures var r := Complete(ld, ev);
      Counting(r, missing) || (Finished(r) && missing == 0)
  {
    match ev
    case Loaded(u) =>
      if u in ld.pending && !u.JsonFetch? {
        var ld1 := ld.(pending := ld.pending - multiset{u});
        TakeOne(ld.pending, u);
        LoadedCallsHandler(ld, u);
        HandlerCounts(ld1, missing);
      }
    case Response(src, status, body) =>
      if JsonFetch(src) in ld.pending {
        var ld1 := ld.(pending := ld.pending - multiset{JsonFetch(src)});
        TakeOne(ld.pending, JsonFetch(src));
        ResponseCallsHandler(ld, src, body.value);
        if body.value.frames.None? {
          HandlerCounts(ld1, missing);
        }
      }
  }

  /** A failed JSON request that was pending loses its handler call for good. */
  lemma CompleteFailedCounts(ld: Loader, ev: Event, missing: nat)
    requires Counting(ld, missing) && !Good(ev) && JsonFetch(ev.src) in ld.pending
    ensures Counting(Complete(ld, ev), missing + 1)
  {
    FailureSkipsHandler(ld, ev);
    TakeOne(ld.pending, JsonFetch(ev.src));
  }

  /** Any completion keeps a batch counting, or finishes it only when nothing was missing. */
  lemma CompleteCounts(ld: Loader, ev: Event, missing: nat)
    requires Counting(ld, missing)
    ensures var r := Complete(ld, ev);
      Counting(r, missing) || Counting(r, missing + 1) || (Finished(r) && missing == 0)
  {
    if !Good(ev) && JsonFetch(ev.src) in ld.pending {
      CompleteFailedCounts(ld, ev, missing);
    } else if Good(ev) {
      CompleteGoodCounts(ld, ev, missing);
    }
  }

  /** With nothing in flight, no event changes anything: a finished batch stays finished. */
  lemma IdleIgnoresEvents(ld: Loader, evs: seq<Event>)
    requires ld.pending == multiset{}
    ensures Run(ld, evs) == ld
    decreases |evs|
  {
    if evs != [] {
      IdleIgnoresEvents(Complete(ld, evs[0]), evs[1..]);
    }
  }

  /** Once a handler call is missing, no sequence of events resolves the batch. */
  lemma {:induction false} MissingNeverResolves(ld: Loader, evs: seq<Event>, missing: nat)
    requires Counting(ld, missing) && missing >= 1
    ensures Run(ld, evs).resolves == 0
    decreases |evs|
  {
    if evs != [] {
      var ld1 := Complete(ld, evs[0]);
      CompleteCounts(ld, evs[0], missing);
      if Counting(ld1, missing) {
        MissingNeverResolves(ld1, evs[1..], missing);
      } else {
        MissingNeverResolves(ld1, evs[1..], missing + 1);
      }
    }
  }

  /** Good events keep a complete batch counting until it finishes. */
  lemma {:induction false} GoodRunCounts(ld: Loader, evs: seq<Event>)
    requires Counting(ld, 0) || Finished(ld)
    requires forall i :: 0 <= i < |evs| ==> Good(evs[i])
    ensures Counting(Run(ld, evs), 0) || Finished(Run(ld, evs))
    decreases |evs|
  {
    if evs != [] {
      if Finished(ld) {
        IdleIgnoresEvents(ld, evs);
      } else {
        CompleteGoodCounts(ld, evs[0], 0);
        GoodRunCounts(Complete(ld, evs[0]), evs[1..]);
      }
    }
  }

  /** A batch of recognized sources starts with no handler call missing. */
  lemma RecognizedBatchStarts(ld: Loader, sources: seq<string>)
    requires ld.pending == multiset{} && ld.loaded == 0
    requires sources != [] && forall i :: 0 <= i < |sources| ==> Classify(sources[i]) != Unrecognized
    ensures Counting(StartBatch(ld, sources), 0) || Finished(StartBatch(ld, sources))
  {
    var kinds := Kinds(sources);
    assert Unrecognized !in kinds;
    StartBatchCounts(ld, sources);
  }

  /**
   * A fresh loader given a nonempty batch of recognized sources, fed good
   * events: the batch resolves at most once, and exactly once by the time
   * nothing is left in flight.
   */
  lemma BatchResolvesWhenDrained(ld: Loader, sources: seq<string>, evs: seq<Event>)
    requires ld.pending == multiset{} && ld.loaded == 0
    requires sources != [] && forall i :: 0 <= i < |sources| ==> Classify(sources[i]) != Unrecognized
    requires forall i :: 0 <= i < |evs| ==> Good(evs[i])
    ensures var r := Run(StartBatch(ld, sources), evs);
      && r.resolves <= 1
      && (r.resolves == 1 <==> r.pending == multiset{})
      && (r.pending == multiset{} <==> Finished(r))
  {
    RecognizedBatchStarts(ld, sources);
    GoodRunCounts(StartBatch(ld, sources), evs);
  }

  /** A batch with an unrecognized source never resolves, whatever completes. */
  lemma UnrecognizedSourceStalls(ld: Loader, sources: seq<string>, evs: seq<Event>, k: nat)
    requires ld.pending == multiset{} && ld.loaded == 0
    requires k < |sources| && Classify(sources[k]) == Unrecognized
    ensures Run(StartBatch(ld, sources), evs).resolves == 0
  {
    var r0 := StartBatch(ld, sources);
    var n := Unknown(Kinds(sources));
    assert Counting(r0, n) && n >= 1 by {
      assert Kinds(sources)[k] == Unrecognized;
      StartBatchCounts(ld, sources);
    }
    MissingNeverResolves(r0, evs, n);
  }

  /** After a pending JSON request fails, the batch never resolves. */
  lemma FailedRequestStalls(ld: Loader, ev: Event, evs: seq<Event>)
    requires Counting(ld, 0) && !Good(ev) && JsonFetch(ev.src) in ld.pending
    ensures Run(ld, [ev] + evs).resolves == 0
  {
    CompleteFailedCounts(ld, ev, 0);
    assert ([ev] + evs)[1..] == evs;
    MissingNeverResolves(Complete(ld, ev), evs, 1);
  }

  /** An empty batch never resolves: the handler never runs. */
  lemma EmptyBatchStalls(ld: Loader, evs: seq<Event>)
    requires ld.pending == multiset{}
    ensures Run(StartBatch(ld, []), evs).resolves == 0
  {
    IdleIgnoresEvents(StartBatch(ld, []), evs);
  }

  /** Dispatching two sources is dispatching one after the other. */
  lemma DispatchTwo(ld: Loader, a: string, b: string)
    ensures DispatchAll(ld, [a, b]) == Dispatch(Dispatch(ld, a), b)
  {
    var ld1 := Dispatch(ld, a);
    assert [a, b][1..] == [b];
    assert DispatchAll(ld, [a, b]) == DispatchAll(ld1, [b]);
    assert DispatchAll(ld1, [b]) == DispatchAll(Dispatch(ld1, b), []);
  }

  /** A font is counted at once: its dispatch moves the counters exactly as one handler call. */
  lemma FontCountsAtOnce(ld: Loader, f: string)
    requires Classify(f) == FontFile
    ensures var r := Dispatch(ld, f);
      var h := Handler(ld);
      r.toLoad == h.toLoad && r.loaded == h.loaded && r.resolves == h.resolves
  {
  }

  /**
   * `loaded` survives a stalled batch: with one stale count, a batch of
   * two fonts resolves after the first and leaves `loaded` at 1 again.
   */
  lemma StaleCountResolvesEarly(fa: string, fb: string)
    requires Classify(fa) == FontFile && Classify(fb) == FontFile
    ensures var ld := Fresh.(loaded := 1);
      var r := StartBatch(ld, [fa, fb]);
      && Dispatch(ld.(toLoad := 2), fa).resolves == 1
      && r.resolves == 1 && r.loaded == 1 && r.toLoad == 0
  {
    var ld0 := Fresh.(loaded := 1, toLoad := 2);
    var ld1 := Dispatch(ld0, fa);
    assert ld1.resolves == 1 && ld1.loaded == 0 && ld1.toLoad == 0 by {
      FontCountsAtOnce(ld0, fa);
    }
    assert Dispatch(ld1, fb).resolves == 1 && Dispatch(ld1, fb).loaded == 1 && Dispatch(ld1, fb).toLoad == 0 by {
      FontCountsAtOnce(ld1, fb);
    }
    DispatchTwo(ld0, fa, fb);
  }

  /** Dispatching an image starts one load and leaves the counters alone. */
  lemma DispatchImage(ld: Loader, src: string)
    requires Classify(src) == ImageFile
    ensures var r := Dispatch(ld, src);
      && r.pending == ld.pending + multiset{ImageLoad(src)}
      && r.loaded == ld.loaded && r.toLoad == ld.toLoad && r.resolves == ld.resolves
  {
  }

  /** Starting a batch of two images on a stale count of 1: both are in flight, nothing has counted yet. */
  lemma StaleTwoImages(a: string, b: string)
    requires Classify(a) == ImageFile && Classify(b) == ImageFile
    ensures var r := StartBatch(Fresh.(loaded := 1), [a, b]);
      && r.pending == multiset{ImageLoad(a)} + multiset{ImageLoad(b)}
      && r.loaded == 1 && r.toLoad == 2 && r.resolves == 0
  {
    var ld0 := Fresh.(loaded := 1, toLoad := 2);
    assert Fresh.(loaded := 1).(toLoad := |[a, b]|, resolves := 0) == ld0;
    DispatchTwo(ld0, a, b);
    DispatchImage(ld0, a);
    DispatchImage(Dispatch(ld0, a), b);
  }

  /**
   * With a stale count of 1, a batch of two images resolves as soon as the
   * first image loads, while the second is still in flight.
   */
  lemma StaleCountResolvesWithImagePending(a: string, b: string)
    requires Classify(a) == ImageFile && Classify(b) == ImageFile
    ensures var r := Complete(StartBatch(Fresh.(loaded := 1), [a, b]), Loaded(ImageLoad(a)));
      r.resolves == 1 && ImageLoad(b) in r.pending
  {
    var ld := StartBatch(Fresh.(loaded := 1), [a, b]);
    StaleTwoImages(a, b);
    LoadedCallsHandler(ld, ImageLoad(a));
    assert ImageLoad(b) in ld.pending - multiset{ImageLoad(a)};
  }
}

=== FILE: hierarchy.dfy ===
/**
 * Tree mutations of the display-object hierarchy: `addChild`,
 * `removeChild`, `add`, `remove`, `swapChildren`, the `layer` setter and
 * the auto-sizing of `ObjectGrouper` (Group) containers.
 */
module Hierarchy {
  import opened Wrappers
  import opened JsArray
  import opened StableSort
  import opened Scene

  // ---------------------------------------------------------------------
  // Group sizing
  // ---------------------------------------------------------------------

  /** How far a child reaches to the right of / below its container's origin. */
  function ReachX(n: Node): real { n.x + n.width }
  function ReachY(n: Node): real { n.y + n.height }

  /** `v` is the larger of 0 and the largest reach among the children of `g`. */
  ghost predicate IsExtent(v: real, st: Store, g: NodeId, f: Node -> real)
    requires Valid(st) && g in st
  {
    ChildrenInStore(st, g);
    var ids := st[g].children;
    && 0.0 <= v
    && (forall i :: 0 <= i < |ids| ==> f(st[ids[i]]) <= v)
    && (v == 0.0 || exists i :: 0 <= i < |ids| && f(st[ids[i]]) == v)
  }

  /** The `forEach` of `calculateSize`: a running maximum that only grows on a strictly larger reach. */
  function MaxReach(st: Store, ids: seq<NodeId>, acc: real, f: Node -> real): (m: real)
    requires forall i :: 0 <= i < |ids| ==> ids[i] in st
    ensures acc <= m
    ensures forall i :: 0 <= i < |ids| ==> f(st[ids[i]]) <= m
    ensures m == acc || exists i :: 0 <= i < |ids| && f(st[ids[i]]) == m
  {
    if ids == [] then acc
    else
      var v := f(st[ids[0]]);
      var m := MaxReach(st, ids[1..], if v > acc then v else acc, f);
      assert forall i :: 1 <= i < |ids| ==> ids[i] == ids[1..][i - 1];
      m
  }

  /** The node `calculateSize` leaves behind: only its width and height can differ. */
  function Resized(st: Store, g: NodeId): (n: Node)
    requires Valid(st) && g in st
    ensures n == st[g].(width := n.width, height := n.height)
    ensures st[g].children != [] ==> IsExtent(n.width, st, g, ReachX)
    ensures st[g].children != [] ==> IsExtent(n.height, st, g, ReachY)
    ensures st[g].children == [] ==> n == st[g]
  {
    var kids := st[g].children;
    ChildrenInStore(st, g);
    if |kids| > 0 then
      st[g].(width := MaxReach(st, kids, 0.0, ReachX), height := MaxReach(st, kids, 0.0, ReachY))
    else st[g]
  }

  /**
   * `calculateSize`: with children, the width and height become the
   * extents of the children's boxes (never below 0); with none, the old
   * size is kept.
   */
  function CalculateSize(st: Store, g: NodeId): (r: Store)
    requires Valid(st) && g in st
    ensures r.Keys == st.Keys && Valid(r)
    ensures forall k :: k in st && k != g ==> r[k] == st[k]
    ensures r[g].(width := st[g].width, height := st[g].height) == st[g]
    ensures r[g] == Resized(st, g)
    ensures st[g].children == [] ==> r == st
  {
    ValidUpdate(st, g, Resized(st, g));
    st[g := Resized(st, g)]
  }

  lemma {:induction false} MaxReachAgree(st: Store, st2: Store, ids: seq<NodeId>, acc: real, f: Node -> real)
    requires forall i :: 0 <= i < |ids| ==> ids[i] in st && ids[i] in st2 && f(st2[ids[i]]) == f(st[ids[i]])
    ensures MaxReach(st2, ids, acc, f) == MaxReach(st, ids, acc, f)
  {
    if ids != [] {
      var v := f(st[ids[0]]);
      MaxReachAgree(st, st2, ids[1..], if v > acc then v else acc, f);
    }
  }

  // ---------------------------------------------------------------------
  // removeChild / addChild
  // ---------------------------------------------------------------------

  /** The size a container ends with: recomputed for a Group (unless it contains itself), kept otherwise. */
  ghost predicate SizedAfter(r: Store, a: NodeId, before: Node)
    requires Valid(r) && a in r
  {
    ChildrenInStore(r, a);
    if r[a].kind != Group || r[a].children == [] then
      r[a].width == before.width && r[a].height == before.height
    else
      a in r[a].children ||
      (r[a].width == MaxReach(r, r[a].children, 0.0, ReachX) &&
       r[a].height == MaxReach(r, r[a].children, 0.0, ReachY))
  }

  lemma SizedAfterAnyBefore(r: Store, a: NodeId, n1: Node, n2: Node)
    requires Valid(r) && a in r && SizedAfter(r, a, n1)
    requires (r[a].kind == Group && r[a].children != []) || (n1.width == n2.width && n1.height == n2.height)
    ensures SizedAfter(r, a, n2)
  {
  }

  /** After `calculateSize` a Group satisfies `SizedAfter` relative to its state just before. */
  lemma ResizedGroupIsSized(st: Store, g: NodeId)
    requires Valid(st) && g in st && st[g].kind == Group
    ensures SizedAfter(CalculateSize(st, g), g, st[g])
  {
    var r := CalculateSize(st, g);
    var kids := st[g].children;
    ChildrenInStore(st, g);
    ChildrenInStore(r, g);
    if kids != [] && g !in kids {
      MaxReachAgree(st, r, kids, 0.0, ReachX);
      MaxReachAgree(st, r, kids, 0.0, ReachY);
    }
  }

  /**
   * The body of `removeChild` once the parent check passed:
   * `splice(indexOf(s), 1)`, then `calculateSize` for a Group.
   * The child's `parent` is left as it was.
   */
  function Detach(st: Store, p: NodeId, s: NodeId): (r: Store)
    requires Valid(st) && p in st
    ensures r.Keys == st.Keys && Valid(r)
  {
    var kids := SpliceOne(st[p].children, IndexOf(st[p].children, s));
    assert forall c :: c in kids ==> c in st[p].children;
    ValidUpdate(st, p, st[p].(children := kids));
    var st1 := st[p := st[p].(children := kids)];
    if st1[p].kind == Group then CalculateSize(st1, p) else st1
  }

  /** What `Detach` changes: `p`'s children and, for a Group, `p`'s size. */
  lemma DetachEffect(st: Store, p: NodeId, s: NodeId)
    requires Valid(st) && p in st
    ensures var r := Detach(st, p, s);
      && r[p].children == SpliceOne(st[p].children, IndexOf(st[p].children, s))
      && r[p] == st[p].(children := r[p].children, width := r[p].width, height := r[p].height)
      && (forall o :: o in st && o != p ==> r[o] == st[o])
      && (st[p].kind != Group ==> r[p] == st[p].(children := r[p].children))
      && SizedAfter(r, p, st[p])
  {
    var kids := SpliceOne(st[p].children, IndexOf(st[p].children, s));
    assert forall c :: c in kids ==> c in st[p].children;
    ValidUpdate(st, p, st[p].(children := kids));
    var st1 := st[p := st[p].(children := kids)];
    if st1[p].kind == Group {
      ResizedGroupIsSized(st1, p);
    }
  }

  /**
   * `a.removeChild(s)`: throws unless `s.parent` is `a`; otherwise splices
   * `s` out (or, when `s` is missing, the last child) and leaves `s.parent`
   * set.
   */
  function RemoveChild(st: Store, a: NodeId, s: NodeId): (r: Result<Store, TreeError>)
    requires Valid(st) && a in st && s in st
    ensures r.Ok? <==> st[s].parent == Some(a)
    ensures r.Err? ==> r.error == NotAChild(s, a)
    ensures r.Ok? ==> r.value.Keys == st.Keys && Valid(r.value)
  {
    if st[s].parent == Some(a) then Ok(Detach(st, a, s)) else Err(NotAChild(s, a))
  }

  /**
   * A successful `removeChild` takes `s` out of `a.children` (or, when `s`
   * is missing, the last child), sizes a Group, leaves `s.parent` set and
   * touches no other node.
   */
  lemma RemoveChildEffect(st: Store, a: NodeId, s: NodeId)
    requires Valid(st) && a in st && s in st && st[s].parent == Some(a)
    ensures var r := RemoveChild(st, a, s).value;
      && r[s].parent == Some(a)
      && (s in st[a].children ==> multiset(r[a].children) == multiset(st[a].children) - multiset{s})
      && (s !in st[a].children && st[a].children != [] ==>
            r[a].children == st[a].children[..|st[a].children| - 1])
      && (st[a].children == [] ==> r[a].children == [])
      && SizedAfter(r, a, st[a])
      && forall o :: o in st && o != a ==> r[o] == st[o]
  {
    DetachEffect(st, a, s);
    SpliceIndexOf(st[a].children, s);
  }

  /** `removeChild` never re-points a parent, not even the removed sprite's. */
  lemma RemoveChildKeepsParent(st: Store, a: NodeId, s: NodeId, o: NodeId)
    requires Valid(st) && a in st && s in st && st[s].parent == Some(a) && o in st
    ensures RemoveChild(st, a, s).value[o].parent == st[o].parent
  {
    DetachEffect(st, a, s);
  }

  /** `if (sprite.parent) sprite.parent.removeChild(sprite)`: the first step of `addChild`. */
  function Unlink(st: Store, s: NodeId): (r: Store)
    requires Valid(st) && s in st
    ensures r.Keys == st.Keys && Valid(r)
  {
    if st[s].parent.Some? then Detach(st, st[s].parent.value, s) else st
  }

  /** What `Unlink` changes: only the old parent's children and size; no parent, no kind. */
  lemma UnlinkEffect(st: Store, s: NodeId)
    requires Valid(st) && s in st
    ensures var r := Unlink(st, s);
      && (forall o :: o in st ==> r[o].parent == st[o].parent && r[o].kind == st[o].kind)
      && (forall o :: o in st && st[o].kind != Group ==> r[o].width == st[o].width && r[o].height == st[o].height)
      && (st[s].parent.None? ==> r == st)
      && (st[s].parent.Some? ==>
            var p := st[s].parent.value;
            && r[p].children == SpliceOne(st[p].children, IndexOf(st[p].children, s))
            && r[p] == st[p].(children := r[p].children, width := r[p].width, height := r[p].height)
            && SizedAfter(r, p, st[p])
            && forall o :: o in st && o != p ==> r[o] == st[o])
  {
    if st[s].parent.Some? {
      DetachEffect(st, st[s].parent.value, s);
    }
  }

  /** `sprite.parent = this; this.children.push(sprite)`, then a Group's `calculateSize`. */
  function Attach(st: Store, a: NodeId, s: NodeId): (r: Store)
    requires Valid(st) && a in st && s in st
    ensures r.Keys == st.Keys && Valid(r)
  {
    ValidUpdate(st, s, st[s].(parent := Some(a)));
    var st2 := st[s := st[s].(parent := Some(a))];
    ValidUpdate(st2, a, st2[a].(children := st2[a].children + [s]));
    var st3 := st2[a := st2[a].(children := st2[a].children + [s])];
    if st3[a].kind == Group then
      ValidUpdate(st3, a, Resized(st3, a));
      st3[a := Resized(st3, a)]
    else st3
  }

  /** What `Attach` changes: `s.parent`, `a`'s children and, for a Group, `a`'s size. */
  lemma AttachEffect(st: Store, a: NodeId, s: NodeId)
    requires Valid(st) && a in st && s in st
    ensures var r := Attach(st, a, s);
      && r[s].parent == Some(a)
      && r[a].children == st[a].children + [s]
      && (a != s ==> r[a].parent == st[a].parent)
      && (a != s ==> r[s] == st[s].(parent := Some(a)))
      && r[a] == st[a].(parent := r[a].parent, children := r[a].children, width := r[a].width, height := r[a].height)
      && SizedAfter(r, a, st[a])
      && forall o :: o in st && o != a && o != s ==> r[o] == st[o]
  {
    var r := Attach(st, a, s);
    var st2 := st[s := st[s].(parent := Some(a))];
    var st3 := st2[a := st2[a].(children := st2[a].children + [s])];
    ValidUpdate(st, s, st[s].(parent := Some(a)));
    ValidUpdate(st2, a, st2[a].(children := st2[a].children + [s]));
    if st3[a].kind == Group {
      ResizedGroupIsSized(st3, a);
      assert r == CalculateSize(st3, a);
      SizedAfterAnyBefore(r, a, st3[a], st[a]);
    } else {
      assert SizedAfter(st3, a, st3[a]);
      SizedAfterAnyBefore(st3, a, st3[a], st[a]);
    }
  }

  /**
   * `a.addChild(s)`: detaches `s` from its current parent through that
   * parent's own `removeChild` (the Group override included), points
   * `s.parent` at `a` and appends `s`; a Group then recomputes its size.
   */
  function AddChild(st: Store, a: NodeId, s: NodeId): (r: Store)
    requires Valid(st) && a in st && s in st
    ensures r.Keys == st.Keys && Valid(r)
  {
    Attach(Unlink(st, s), a, s)
  }

  /**
   * After `a.addChild(s)`: `s.parent` is `a` and `s` is `a`'s last child.
   * From another parent (or none), `s` is appended; re-added to the same
   * parent it moves to the end, its first occurrence spliced out first.
   */
  lemma AddChildLinks(st: Store, a: NodeId, s: NodeId)
    requires Valid(st) && a in st && s in st
    ensures var r := AddChild(st, a, s);
      && r[s].parent == Some(a)
      && |r[a].children| > 0 && r[a].children[|r[a].children| - 1] == s
  {
    UnlinkEffect(st, s);
    AttachEffect(Unlink(st, s), a, s);
  }

  /** Adding a sprite that is not yet a child of `a` appends it to `a.children`. */
  lemma AddChildAppends(st: Store, a: NodeId, s: NodeId)
    requires Valid(st) && a in st && s in st && st[s].parent != Some(a)
    ensures AddChild(st, a, s)[a].children == st[a].children + [s]
  {
    var st1 := Unlink(st, s);
    UnlinkEffect(st, s);
    AttachEffect(st1, a, s);
    if st[s].parent.Some? {
      assert st1[a] == st[a];
    }
  }

  /** Adding a child to its own parent moves it to the end of the array. */
  lemma AddChildMovesToEnd(st: Store, a: NodeId, s: NodeId)
    requires Valid(st) && a in st && s in st && st[s].parent == Some(a)
    ensures AddChild(st, a, s)[a].children == SpliceOne(st[a].children, IndexOf(st[a].children, s)) + [s]
  {
    var st1 := Unlink(st, s);
    UnlinkEffect(st, s);
    AttachEffect(st1, a, s);
  }

  /** Re-adding a child that is already in the array keeps the same multiset of children. */
  lemma ReAddKeepsChildren(st: Store, a: NodeId, s: NodeId)
    requires Valid(st) && a in st && s in st
    requires st[s].parent == Some(a) && s in st[a].children
    ensures multiset(AddChild(st, a, s)[a].children) == multiset(st[a].children)
  {
    AddChildMovesToEnd(st, a, s);
    var spliced := SpliceOne(st[a].children, IndexOf(st[a].children, s));
    SpliceIndexOf(st[a].children, s);
    assert multiset(spliced + [s]) == multiset(spliced) + multiset{s};
  }

  /** The old parent (when it is not `a`) loses `s` through its own `removeChild`. */
  lemma AddChildOldParent(st: Store, a: NodeId, s: NodeId)
    requires Valid(st) && a in st && s in st
    requires st[s].parent.Some? && st[s].parent.value != a
    ensures var p := st[s].parent.value;
      AddChild(st, a, s)[p].children == SpliceOne(st[p].children, IndexOf(st[p].children, s))
  {
    var st1 := Unlink(st, s);
    UnlinkEffect(st, s);
    AttachEffect(st1, a, s);
  }

  /**
   * `addChild` re-points no parent but `s`'s and touches no node but `a`,
   * `s` and `s`'s old parent.
   */
  lemma AddChildFrame(st: Store, a: NodeId, s: NodeId)
    requires Valid(st) && a in st && s in st
    ensures var r := AddChild(st, a, s);
      && (forall o :: o in st && o != s ==> r[o].parent == st[o].parent)
      && (forall o :: o in st && o != a && o != s && Some(o) != st[s].parent ==> r[o] == st[o])
      && (a != s && st[s].parent != Some(s) ==> r[s] == st[s].(parent := Some(a)))
      && (a != s ==> r[a] == st[a].(children := r[a].children, width := r[a].width, height := r[a].height))
      && (st[s].parent.Some? && st[s].parent.value != s ==>
            var p := st[s].parent.value;
            r[p] == st[p].(children := r[p].children, width := r[p].width, height := r[p].height))
  {
    AddChildKeepsStrangers(st, a, s);
    forall o | o in st && o != s
      ensures AddChild(st, a, s)[o].parent == st[o].parent
    {
      AddChildKeepsParent(st, a, s, o);
    }
    if a != s {
      AddChildKeepsContainer(st, a, s);
      if st[s].parent != Some(s) {
        AddChildKeepsSprite(st, a, s);
      }
    }
    if st[s].parent.Some? && st[s].parent.value != s {
      AddChildOldParentKept(st, a, s);
    }
  }

  /** `addChild` touches no node but the container, the sprite and its old parent. */
  lemma AddChildKeepsStrangers(st: Store, a: NodeId, s: NodeId)
    requires Valid(st) && a in st && s in st
    ensures var r := AddChild(st, a, s);
      forall o :: o in st && o != a && o != s && Some(o) != st[s].parent ==> r[o] == st[o]
  {
    UnlinkEffect(st, s);
    AttachEffect(Unlink(st, s), a, s);
  }

  /** A sprite that is not its own parent changes only its `parent` through `addChild`. */
  lemma AddChildKeepsSprite(st: Store, a: NodeId, s: NodeId)
    requires Valid(st) && a in st && s in st && a != s && st[s].parent != Some(s)
    ensures AddChild(st, a, s)[s] == st[s].(parent := Some(a))
  {
    UnlinkEffect(st, s);
    AttachEffect(Unlink(st, s), a, s);
  }

  /** The container keeps every field but its children and size through `addChild`. */
  lemma AddChildKeepsContainer(st: Store, a: NodeId, s: NodeId)
    requires Valid(st) && a in st && s in st && a != s
    ensures var r := AddChild(st, a, s);
      r[a] == st[a].(children := r[a].children, width := r[a].width, height := r[a].height)
  {
    UnlinkEffect(st, s);
    AttachEffect(Unlink(st, s), a, s);
  }

  /** The old parent keeps every field but its children and size through `addChild`. */
  lemma AddChildOldParentKept(st: Store, a: NodeId, s: NodeId)
    requires Valid(st) && a in st && s in st && st[s].parent.Some? && st[s].parent.value != s
    ensures var r := AddChild(st, a, s);
      var p := st[s].parent.value;
      r[p] == st[p].(children := r[p].children, width := r[p].width, height := r[p].height)
  {
    UnlinkEffect(st, s);
    AttachEffect(Unlink(st, s), a, s);
  }

  /** After `addChild`, `a` is sized as a Group must be (a plain container keeps its size). */
  lemma AddChildSizes(st: Store, a: NodeId, s: NodeId)
    requires Valid(st) && a in st && s in st
    ensures SizedAfter(AddChild(st, a, s), a, st[a])
  {
    var st1 := Unlink(st, s);
    UnlinkEffect(st, s);
    AttachEffect(st1, a, s);
    SizedAfterAnyBefore(AddChild(st, a, s), a, st1[a], st[a]);
  }

  // ---------------------------------------------------------------------
  // add / remove of several sprites
  // ---------------------------------------------------------------------

  /** `a.add(...ss)`: `addChild` for each sprite, left to right. */
  function Add(st: Store, a: NodeId, ss: seq<NodeId>): (r: Store)
    requires Valid(st) && a in st && forall i :: 0 <= i < |ss| ==> ss[i] in st
    ensures r.Keys == st.Keys && Valid(r)
    decreases |ss|
  {
    if ss == [] then st
    else Add(AddChild(st, a, ss[0]), a, ss[1..])
  }

  /** `addChild` sets the added sprite's parent. */
  lemma AddChildAdopts(st: Store, a: NodeId, s: NodeId)
    requires Valid(st) && a in st && s in st
    ensures AddChild(st, a, s)[s].parent == Some(a)
  {
    UnlinkEffect(st, s);
    AttachEffect(Unlink(st, s), a, s);
  }

  /** `addChild` leaves the parent of every other node alone. */
  lemma AddChildKeepsParent(st: Store, a: NodeId, s: NodeId, o: NodeId)
    requires Valid(st) && a in st && s in st && o in st && o != s
    ensures AddChild(st, a, s)[o].parent == st[o].parent
  {
    var st1 := Unlink(st, s);
    UnlinkEffect(st, s);
    AttachEffect(st1, a, s);
  }

  /** After `add`, every added sprite has `a` as its parent. */
  lemma {:induction false} AddAdopts(st: Store, a: NodeId, ss: seq<NodeId>, o: NodeId)
    requires Valid(st) && a in st && forall i :: 0 <= i < |ss| ==> ss[i] in st
    requires o in ss
    ensures Add(st, a, ss)[o].parent == Some(a)
    decreases |ss|
  {
    var st1 := AddChild(st, a, ss[0]);
    if o in ss[1..] {
      AddAdopts(st1, a, ss[1..], o);
    } else {
      AddChildAdopts(st, a, ss[0]);
      AddKeepsOtherParents(st1, a, ss[1..], o);
    }
  }

  /** `add` re-points the parent of no node outside the added sprites. */
  lemma {:induction false} AddKeepsOtherParents(st: Store, a: NodeId, ss: seq<NodeId>, o: NodeId)
    requires Valid(st) && a in st && forall i :: 0 <= i < |ss| ==> ss[i] in st
    requires o in st && o !in ss
    ensures Add(st, a, ss)[o].parent == st[o].parent
    decreases |ss|
  {
    if ss != [] {
      AddChildKeepsParent(st, a, ss[0], o);
      AddKeepsOtherParents(AddChild(st, a, ss[0]), a, ss[1..], o);
    }
  }

  /**
   * Adding distinct sprites none of which is already a child of `a`
   * appends them to `a.children` in argument order.
   */
  lemma {:induction false} AddAppends(st: Store, a: NodeId, ss: seq<NodeId>)
    requires Valid(st) && a in st && forall i :: 0 <= i < |ss| ==> ss[i] in st
    requires forall i, j :: 0 <= i < j < |ss| ==> ss[i] != ss[j]
    requires forall i :: 0 <= i < |ss| ==> st[ss[i]].parent != Some(a)
    ensures Add(st, a, ss)[a].children == st[a].children + ss
    decreases |ss|
  {
    if ss != [] {
      var st1 := AddChild(st, a, ss[0]);
      AddChildAppends(st, a, ss[0]);
      StrangersStayStrangers(st, a, ss);
      AddAppends(st1, a, ss[1..]);
      AppendHead(st[a].children, ss);
    }
  }

  /** After the first `addChild` of `add`, the remaining distinct sprites are still not children of `a`. */
  lemma StrangersStayStrangers(st: Store, a: NodeId, ss: seq<NodeId>)
    requires Valid(st) && a in st && forall i :: 0 <= i < |ss| ==> ss[i] in st
    requires forall i, j :: 0 <= i < j < |ss| ==> ss[i] != ss[j]
    requires forall i :: 0 <= i < |ss| ==> st[ss[i]].parent != Some(a)
    requires ss != []
    ensures var st1 := AddChild(st, a, ss[0]);
      && (forall i :: 0 <= i < |ss[1..]| ==> st1[ss[1..][i]].parent != Some(a))
      && (forall i, j :: 0 <= i < j < |ss[1..]| ==> ss[1..][i] != ss[1..][j])
  {
    var rest := ss[1..];
    forall i | 0 <= i < |rest|
      ensures AddChild(st, a, ss[0])[rest[i]].parent != Some(a)
    {
      assert rest[i] == ss[i + 1] && ss[i + 1] != ss[0];
      AddChildKeepsParent(st, a, ss[0], ss[i + 1]);
    }
    forall i, j | 0 <= i < j < |rest| ensures rest[i] != rest[j] {
      assert rest[i] == ss[i + 1] && rest[j] == ss[j + 1];
    }
  }

  lemma AppendHead<T>(p: seq<T>, ss: seq<T>)
    requires ss != []
    ensures p + [ss[0]] + ss[1..] == p + ss
  {
  }

  lemma SubtractHead<T>(m: multiset<T>, ss: seq<T>)
    requires ss != []
    ensures (m - multiset{ss[0]}) - multiset(ss[1..]) == m - multiset(ss)
  {
    assert ss == [ss[0]] + ss[1..];
  }

  /** A Group that received at least one sprite ends sized to its children. */
  lemma {:induction false} AddSizesGroup(st: Store, a: NodeId, ss: seq<NodeId>)
    requires Valid(st) && a in st && forall i :: 0 <= i < |ss| ==> ss[i] in st
    requires st[a].kind == Group && ss != []
    ensures var r := Add(st, a, ss);
      r[a].kind == Group && r[a].children != [] && SizedAfter(r, a, st[a])
    decreases |ss|
  {
    var st1 := AddChild(st, a, ss[0]);
    AddChildLinks(st, a, ss[0]);
    AddChildSizes(st, a, ss[0]);
    AddChildKeepsKinds(st, a, ss[0]);
    if |ss| > 1 {
      AddSizesGroup(st1, a, ss[1..]);
      SizedAfterAnyBefore(Add(st, a, ss), a, st1[a], st[a]);
    }
  }

  /** `add` never changes what kind of object a node is. */
  lemma {:induction false} AddKeepsKinds(st: Store, a: NodeId, ss: seq<NodeId>)
    requires Valid(st) && a in st && forall i :: 0 <= i < |ss| ==> ss[i] in st
    ensures forall o :: o in st ==> Add(st, a, ss)[o].kind == st[o].kind
    decreases |ss|
  {
    if ss != [] {
      AddChildKeepsKinds(st, a, ss[0]);
      AddKeepsKinds(AddChild(st, a, ss[0]), a, ss[1..]);
    }
  }

  /** `addChild` never changes what kind of object a node is. */
  lemma AddChildKeepsKinds(st: Store, a: NodeId, s: NodeId)
    requires Valid(st) && a in st && s in st
    ensures forall o :: o in st ==> AddChild(st, a, s)[o].kind == st[o].kind
  {
    var st1 := Unlink(st, s);
    UnlinkEffect(st, s);
    AttachEffect(st1, a, s);
    AttachKeepsKinds(st1, a, s);
  }

  lemma AttachKeepsKinds(st: Store, a: NodeId, s: NodeId)
    requires Valid(st) && a in st && s in st
    ensures forall o :: o in st ==> Attach(st, a, s)[o].kind == st[o].kind
  {
  }

  /** What `a.remove(...ss)` leaves behind: the store so far, and the error that stopped it, if any. */
  datatype Removal = Removal(store: Store, thrown: Option<TreeError>)

  /**
   * `a.remove(...ss)`: `removeChild` for each sprite; the first throw
   * abandons the rest, but removals already made stay made.
   */
  function Remove(st: Store, a: NodeId, ss: seq<NodeId>): (r: Removal)
    requires Valid(st) && a in st && forall i :: 0 <= i < |ss| ==> ss[i] in st
    ensures r.store.Keys == st.Keys && Valid(r.store)
    decreases |ss|
  {
    if ss == [] then Removal(st, None)
    else
      match RemoveChild(st, a, ss[0])
      case Err(e) => Removal(st, Some(e))
      case Ok(st1) => Remove(st1, a, ss[1..])
  }

  /** One step of `remove` on a child: it is removed and the rest of the list follows. */
  lemma RemoveStepChild(st: Store, a: NodeId, ss: seq<NodeId>)
    requires Valid(st) && a in st && forall i :: 0 <= i < |ss| ==> ss[i] in st
    requires ss != [] && st[ss[0]].parent == Some(a)
    ensures Remove(st, a, ss) == Remove(RemoveChild(st, a, ss[0]).value, a, ss[1..])
  {
  }

  /** One step of `remove` on a sprite that is not a child: it throws and stops there. */
  lemma RemoveStepStranger(st: Store, a: NodeId, ss: seq<NodeId>)
    requires Valid(st) && a in st && forall i :: 0 <= i < |ss| ==> ss[i] in st
    requires ss != [] && st[ss[0]].parent != Some(a)
    ensures Remove(st, a, ss) == Removal(st, Some(NotAChild(ss[0], a)))
  {
  }

  /** `removeChild` keeps the parent of every sprite of a list. */
  lemma RemoveChildKeepsParents(st: Store, a: NodeId, s: NodeId, ss: seq<NodeId>)
    requires Valid(st) && a in st && s in st && st[s].parent == Some(a)
    requires forall i :: 0 <= i < |ss| ==> ss[i] in st
    ensures forall i :: 0 <= i < |ss| ==> RemoveChild(st, a, s).value[ss[i]].parent == st[ss[i]].parent
  {
    forall i | 0 <= i < |ss|
      ensures RemoveChild(st, a, s).value[ss[i]].parent == st[ss[i]].parent
    {
      RemoveChildKeepsParent(st, a, s, ss[i]);
    }
  }

  /** `remove` re-points no parent. */
  lemma {:induction false} RemoveKeepsParent(st: Store, a: NodeId, ss: seq<NodeId>, o: NodeId)
    requires Valid(st) && a in st && forall i :: 0 <= i < |ss| ==> ss[i] in st
    requires o in st
    ensures Remove(st, a, ss).store[o].parent == st[o].parent
    decreases |ss|
  {
    if ss != [] {
      if st[ss[0]].parent == Some(a) {
        RemoveStepChild(st, a, ss);
        RemoveChildKeepsParent(st, a, ss[0], o);
        RemoveKeepsParent(RemoveChild(st, a, ss[0]).value, a, ss[1..], o);
      }
    }
  }

  /** All parents in the list are `a`. */
  ghost predicate AllChildrenOf(st: Store, a: NodeId, ss: seq<NodeId>)
    requires forall i :: 0 <= i < |ss| ==> ss[i] in st
  {
    forall i :: 0 <= i < |ss| ==> st[ss[i]].parent == Some(a)
  }

  /** The index of the first sprite of `ss` whose parent is not `a`, if there is one. */
  ghost function FirstStranger(st: Store, a: NodeId, ss: seq<NodeId>): (r: Option<nat>)
    requires forall i :: 0 <= i < |ss| ==> ss[i] in st
    ensures r.None? <==> AllChildrenOf(st, a, ss)
    ensures r.Some? ==> r.value < |ss| && st[ss[r.value]].parent != Some(a)
    ensures r.Some? ==> forall i :: 0 <= i < r.value ==> st[ss[i]].parent == Some(a)
    decreases |ss|
  {
    if ss == [] then None
    else if st[ss[0]].parent != Some(a) then Some(0)
    else
      assert forall i :: 1 <= i < |ss| ==> ss[i] == ss[1..][i - 1];
      match FirstStranger(st, a, ss[1..])
      case None => None
      case Some(j) => Some(j + 1)
  }

  /** A stranger at `k` behind only children is the first stranger. */
  lemma FirstStrangerAt(st: Store, a: NodeId, ss: seq<NodeId>, k: nat)
    requires forall i :: 0 <= i < |ss| ==> ss[i] in st
    requires k < |ss| && st[ss[k]].parent != Some(a)
    requires forall i :: 0 <= i < k ==> st[ss[i]].parent == Some(a)
    ensures FirstStranger(st, a, ss) == Some(k)
  {
  }

  /** The first stranger depends only on the parents of the listed sprites. */
  lemma FirstStrangerSameParents(st: Store, st1: Store, a: NodeId, ss: seq<NodeId>)
    requires forall i :: 0 <= i < |ss| ==> ss[i] in st && ss[i] in st1
    requires forall i :: 0 <= i < |ss| ==> st1[ss[i]].parent == st[ss[i]].parent
    ensures FirstStranger(st1, a, ss) == FirstStranger(st, a, ss)
  {
    var r := FirstStranger(st, a, ss);
    if r.Some? {
      FirstStrangerAt(st1, a, ss, r.value);
    } else {
      assert AllChildrenOf(st1, a, ss);
    }
  }

  /** The error `remove` should throw: `NotAChild` for the first stranger, or none. */
  ghost function StrangerError(st: Store, a: NodeId, ss: seq<NodeId>): (e: Option<TreeError>)
    requires forall i :: 0 <= i < |ss| ==> ss[i] in st
    ensures e.None? <==> AllChildrenOf(st, a, ss)
    ensures e.Some? ==> exists k :: 0 <= k < |ss| && e.value == NotAChild(ss[k], a) && st[ss[k]].parent != Some(a)
  {
    match FirstStranger(st, a, ss)
    case None => None
    case Some(k) => Some(NotAChild(ss[k], a))
  }

  /**
   * Once the head child of `a` is removed, the rest of the list, whose
   * parents are unchanged in `st1`, has the same error to throw.
   */
  lemma StrangerErrorOfTail(st: Store, st1: Store, a: NodeId, ss: seq<NodeId>)
    requires ss != [] && forall i :: 0 <= i < |ss| ==> ss[i] in st
    requires st[ss[0]].parent == Some(a)
    requires forall i :: 0 <= i < |ss[1..]| ==> ss[1..][i] in st1
    requires forall i :: 0 <= i < |ss[1..]| ==> st1[ss[1..][i]].parent == st[ss[1..][i]].parent
    ensures StrangerError(st1, a, ss[1..]) == StrangerError(st, a, ss)
  {
    var rest := ss[1..];
    FirstStrangerSameParents(st, st1, a, rest);
    var r := FirstStranger(st, a, rest);
    if r.Some? {
      assert FirstStranger(st, a, ss) == Some(r.value + 1);
      assert ss[r.value + 1] == rest[r.value];
    }
  }

  /** `remove` throws exactly the error of the first sprite whose parent is not `a`. */
  lemma {:induction false} RemoveThrowsFirstStranger(st: Store, a: NodeId, ss: seq<NodeId>)
    requires Valid(st) && a in st && forall i :: 0 <= i < |ss| ==> ss[i] in st
    ensures Remove(st, a, ss).thrown == StrangerError(st, a, ss)
    decreases |ss|
  {
    if ss != [] {
      if st[ss[0]].parent == Some(a) {
        RemoveStepChild(st, a, ss);
        var st1 := RemoveChild(st, a, ss[0]).value;
        RemoveThrowsFirstStranger(st1, a, ss[1..]);
        RemoveChildKeepsParents(st, a, ss[0], ss[1..]);
        StrangerErrorOfTail(st, st1, a, ss);
      } else {
        RemoveStepStranger(st, a, ss);
      }
    }
  }

  /** `remove` finishes without throwing exactly when every sprite's parent is `a`. */
  lemma RemoveThrowsIff(st: Store, a: NodeId, ss: seq<NodeId>)
    requires Valid(st) && a in st && forall i :: 0 <= i < |ss| ==> ss[i] in st
    ensures Remove(st, a, ss).thrown.None? <==> AllChildrenOf(st, a, ss)
  {
    RemoveThrowsFirstStranger(st, a, ss);
  }

  /** When `remove` throws, the error names the first sprite whose parent is not `a`. */
  lemma RemoveNamesFirstStranger(st: Store, a: NodeId, ss: seq<NodeId>, k: nat)
    requires Valid(st) && a in st && forall i :: 0 <= i < |ss| ==> ss[i] in st
    requires k < |ss| && st[ss[k]].parent != Some(a)
    requires forall i :: 0 <= i < k ==> st[ss[i]].parent == Some(a)
    ensures Remove(st, a, ss).thrown == Some(NotAChild(ss[k], a))
  {
    RemoveThrowsFirstStranger(st, a, ss);
    FirstStrangerAt(st, a, ss, k);
  }

  /** After the head of a list of distinct children is removed, the rest are still children in `a`'s array. */
  lemma RestStillInArray(st: Store, a: NodeId, ss: seq<NodeId>)
    requires Valid(st) && a in st && ss != [] && forall i :: 0 <= i < |ss| ==> ss[i] in st
    requires forall i, j :: 0 <= i < j < |ss| ==> ss[i] != ss[j]
    requires forall i :: 0 <= i < |ss| ==> st[ss[i]].parent == Some(a) && ss[i] in st[a].children
    ensures var st1 := RemoveChild(st, a, ss[0]).value;
      forall i :: 0 <= i < |ss[1..]| ==> st1[ss[1..][i]].parent == Some(a) && ss[1..][i] in st1[a].children
  {
    var st1 := RemoveChild(st, a, ss[0]).value;
    var rest := ss[1..];
    RemoveChildEffect(st, a, ss[0]);
    forall i | 0 <= i < |rest|
      ensures st1[rest[i]].parent == Some(a) && rest[i] in st1[a].children
    {
      var c: NodeId := rest[i];
      assert c == ss[i + 1] != ss[0];
      RemoveChildKeepsParent(st, a, ss[0], c);
      assert multiset(st1[a].children)[c] == multiset(st[a].children)[c];
    }
  }

  /**
   * Removing distinct children of `a` that are all in its array takes
   * exactly those sprites out of `a.children`.
   */
  lemma {:induction false} RemoveTakesOut(st: Store, a: NodeId, ss: seq<NodeId>)
    requires Valid(st) && a in st && forall i :: 0 <= i < |ss| ==> ss[i] in st
    requires forall i, j :: 0 <= i < j < |ss| ==> ss[i] != ss[j]
    requires forall i :: 0 <= i < |ss| ==> st[ss[i]].parent == Some(a) && ss[i] in st[a].children
    ensures multiset(Remove(st, a, ss).store[a].children) == multiset(st[a].children) - multiset(ss)
    decreases |ss|
  {
    if ss != [] {
      var st1 := RemoveChild(st, a, ss[0]).value;
      RemoveChildEffect(st, a, ss[0]);
      RestStillInArray(st, a, ss);
      RemoveTakesOut(st1, a, ss[1..]);
      SubtractHead(multiset(st[a].children), ss);
    }
  }

  // ---------------------------------------------------------------------
  // swapChildren
  // ---------------------------------------------------------------------

  /** `c.childIndex = i`: no parent or child link changes, so the store stays valid. */
  function SetChildIndex(st: Store, c: NodeId, i: int): (r: Store)
    requires Valid(st) && c in st
    ensures r.Keys == st.Keys && Valid(r)
    ensures r[c] == st[c].(childIndex := Some(i))
    ensures forall o :: o in st && o != c ==> r[o] == st[o]
  {
    ValidUpdate(st, c, st[c].(childIndex := Some(i)));
    st[c := st[c].(childIndex := Some(i))]
  }

  /** Replaces `a`'s array by a rearrangement of it, which keeps the store valid. */
  function SetChildren(st: Store, a: NodeId, kids: seq<NodeId>): (r: Store)
    requires Valid(st) && a in st && multiset(kids) == multiset(st[a].children)
    ensures r.Keys == st.Keys && Valid(r)
    ensures r[a] == st[a].(children := kids)
    ensures forall o :: o in st && o != a ==> r[o] == st[o]
  {
    forall c | c in kids ensures c in st {
      assert c in multiset(st[a].children);
    }
    ValidUpdate(st, a, st[a].(children := kids));
    st[a := st[a].(children := kids)]
  }

  /**
   * The store after `a`'s slots `i1` (holding `c1`) and `i2` (holding `c2`)
   * are exchanged and each child has recorded the other's index.
   */
  function SwapSlots(st: Store, a: NodeId, c1: NodeId, c2: NodeId, i1: nat, i2: nat): (r: Store)
    requires Valid(st) && a in st && i1 < |st[a].children| && i2 < |st[a].children|
    requires st[a].children[i1] == c1 && st[a].children[i2] == c2
    requires c1 == c2 ==> i1 == i2
    ensures r.Keys == st.Keys && Valid(r)
    ensures r[a].children == st[a].children[i1 := c2][i2 := c1]
    ensures r[c1].childIndex == Some(i2) && r[c2].childIndex == Some(i1)
    ensures forall o :: o in st ==> r[o].parent == st[o].parent
    ensures forall o :: o in st && o != a && o != c1 && o != c2 ==> r[o] == st[o]
  {
    var kids := st[a].children;
    var st1 := SetChildIndex(st, c1, i2);
    var st2 := SetChildIndex(st1, c2, i1);
    assert st2[a].children == kids;
    SwapSlotsMultiset(kids, i1, i2);
    var r := SetChildren(st2, a, kids[i1 := c2][i2 := c1]);
    assert r[c1].childIndex == Some(i2) && r[c2].childIndex == Some(i1) by {
      assert r[c1].childIndex == st2[c1].childIndex && r[c2].childIndex == st2[c2].childIndex;
      if c1 != c2 {
        assert st2[c1] == st1[c1];
      }
    }
    assert forall o :: o in st ==> r[o].parent == st[o].parent by {
      forall o | o in st
        ensures r[o].parent == st[o].parent
      {
        assert r[o].parent == st2[o].parent;
        assert st2[o].parent == st1[o].parent == st[o].parent;
      }
    }
    r
  }

  /**
   * `a.swapChildren(c1, c2)`: with both present, `c1.childIndex` gets the
   * index of `c2` and vice versa, then the two array slots are exchanged
   * (first slot `i1` receives `c2`, then slot `i2` receives `c1`);
   * otherwise it throws.
   */
  function SwapChildren(st: Store, a: NodeId, c1: NodeId, c2: NodeId): (r: Result<Store, TreeError>)
    requires Valid(st) && a in st && c1 in st && c2 in st
    ensures r.Ok? <==> c1 in st[a].children && c2 in st[a].children
    ensures r.Err? ==> r.error == NotChildren(a)
    ensures r.Ok? ==> r.value.Keys == st.Keys && Valid(r.value)
  {
    var kids := st[a].children;
    var i1 := IndexOf(kids, c1);
    var i2 := IndexOf(kids, c2);
    if i1 != -1 && i2 != -1 then
      Ok(SwapSlots(st, a, c1, c2, i1, i2))
    else
      Err(NotChildren(a))
  }

  /**
   * A successful swap exchanges the slots of the first occurrences of `c1`
   * and `c2`, keeps every other slot and so the multiset of children.
   */
  lemma SwapChildrenSlots(st: Store, a: NodeId, c1: NodeId, c2: NodeId)
    requires Valid(st) && a in st && c1 in st && c2 in st
    requires c1 in st[a].children && c2 in st[a].children
    ensures var kids := st[a].children;
      var i1 := IndexOf(kids, c1);
      var i2 := IndexOf(kids, c2);
      var k := SwapChildren(st, a, c1, c2).value[a].children;
      && |k| == |kids|
      && k[i1] == (if i1 == i2 then c1 else c2) && k[i2] == c1
      && (forall j :: 0 <= j < |kids| && j != i1 && j != i2 ==> k[j] == kids[j])
      && multiset(k) == multiset(kids)
  {
    var kids := st[a].children;
    SwapSlotsMultiset(kids, IndexOf(kids, c1), IndexOf(kids, c2));
  }

  /**
   * A successful swap records the exchanged indices in `childIndex`,
   * re-points no parent and touches no node but `a`, `c1` and `c2`.
   */
  lemma SwapChildrenFrame(st: Store, a: NodeId, c1: NodeId, c2: NodeId)
    requires Valid(st) && a in st && c1 in st && c2 in st
    requires c1 in st[a].children && c2 in st[a].children
    ensures var kids := st[a].children;
      var r := SwapChildren(st, a, c1, c2).value;
      && r[c1].childIndex == Some(IndexOf(kids, c2))
      && r[c2].childIndex == Some(IndexOf(kids, c1))
      && (forall o :: o in st ==> r[o].parent == st[o].parent)
      && (forall o :: o in st && o != a && o != c1 && o != c2 ==> r[o] == st[o])
      && (c1 != a && c2 != a ==>
            && r[a] == st[a].(children := r[a].children)
            && r[c1] == st[c1].(childIndex := r[c1].childIndex)
            && r[c2] == st[c2].(childIndex := r[c2].childIndex))
  {
  }

  /** Exchanging two slots of a sequence keeps its multiset. */
  lemma SwapSlotsMultiset<T>(s: seq<T>, i: nat, j: nat)
    requires i < |s| && j < |s|
    ensures multiset(s[i := s[j]][j := s[i]]) == multiset(s)
  {
    var t := s[i := s[j]];
    assert multiset(t) == multiset(s) - multiset{s[i]} + multiset{s[j]};
    assert t[j] == s[j];
  }

  lemma SwapSlotsTwice<T>(s: seq<T>, i: nat, j: nat)
    requires i < |s| && j < |s|
    ensures s[i := s[j]][j := s[i]][j := s[j]][i := s[i]] == s
  {
  }

  /** Swapping the same two children twice restores the array, when no child appears twice. */
  lemma SwapChildrenTwice(st: Store, a: NodeId, c1: NodeId, c2: NodeId)
    requires Valid(st) && a in st && c1 in st && c2 in st
    requires c1 in st[a].children && c2 in st[a].children
    requires forall i, j :: 0 <= i < j < |st[a].children| ==> st[a].children[i] != st[a].children[j]
    ensures var r := SwapChildren(st, a, c1, c2).value;
      && SwapChildren(r, a, c1, c2).Ok?
      && SwapChildren(r, a, c1, c2).value[a].children == st[a].children
  {
    var kids := st[a].children;
    var i1 := IndexOf(kids, c1);
    var i2 := IndexOf(kids, c2);
    var r := SwapChildren(st, a, c1, c2).value;
    SwapChildrenArray(st, a, c1, c2);
    SwapFindsSwapped(kids, i1, i2);
    SwapChildrenArray(r, a, c1, c2);
    SwapSlotsTwice(kids, i1, i2);
  }

  /** The array a successful swap leaves behind. */
  lemma SwapChildrenArray(st: Store, a: NodeId, c1: NodeId, c2: NodeId)
    requires Valid(st) && a in st && c1 in st && c2 in st
    requires c1 in st[a].children && c2 in st[a].children
    ensures var kids := st[a].children;
      SwapChildren(st, a, c1, c2).value[a].children
        == kids[IndexOf(kids, c1) := c2][IndexOf(kids, c2) := c1]
  {
  }

  /** In a sequence without repeats, after exchanging slots `i` and `j` each element is found at the other slot. */
  lemma SwapFindsSwapped<T>(s: seq<T>, i: nat, j: nat)
    requires i < |s| && j < |s|
    requires forall p, q :: 0 <= p < q < |s| ==> s[p] != s[q]
    ensures var t := s[i := s[j]][j := s[i]];
      && (forall p, q :: 0 <= p < q < |t| ==> t[p] != t[q])
      && IndexOf(t, s[i]) == j && IndexOf(t, s[j]) == i
  {
    var t := s[i := s[j]][j := s[i]];
    forall p, q | 0 <= p < q < |t|
      ensures t[p] != t[q]
    {
      var p' := if p == i then j else if p == j then i else p;
      var q' := if q == i then j else if q == j then i else q;
      assert t[p] == s[p'] && t[q] == s[q'] && p' != q';
      if p' < q' { assert s[p'] != s[q']; } else { assert s[q'] != s[p']; }
    }
    DistinctIndex(t, j);
    DistinctIndex(t, i);
  }

  /** In a sequence without repeats, the first occurrence of `s[i]` is at `i`. */
  lemma DistinctIndex<T>(s: seq<T>, i: nat)
    requires i < |s|
    requires forall p, q :: 0 <= p < q < |s| ==> s[p] != s[q]
    ensures IndexOf(s, s[i]) == i
  {
    assert s[i] in s;
  }

  // ---------------------------------------------------------------------
  // The layer setter
  // ---------------------------------------------------------------------

  /** The comparison key of the setter's sort: each node's `layer` in `st`. */
  function LayerKey(st: Store): NodeId -> int {
    (c: NodeId) => if c in st then st[c].layer else 0
  }

  /** The store right after `this._layer = value`, before any sorting. */
  function Relayered(st: Store, id: NodeId, v: int): (r: Store)
    requires Valid(st) && id in st
    ensures r.Keys == st.Keys && Valid(r)
  {
    ValidUpdate(st, id, st[id].(layer := v));
    st[id := st[id].(layer := v)]
  }

  /**
   * `s.layer = v`: store the layer, then, when `s` has a parent, sort the
   * parent's children ascending by layer with a stable sort.
   */
  function SetLayer(st: Store, id: NodeId, v: int): (r: Store)
    requires Valid(st) && id in st
    ensures r.Keys == st.Keys && Valid(r)
  {
    var st1 := Relayered(st, id, v);
    match st[id].parent
    case None => st1
    case Some(p) =>
      var kids := SortByKey(st1[p].children, LayerKey(st1));
      assert forall c :: c in kids ==> c in multiset(st1[p].children);
      ValidUpdate(st1, p, st1[p].(children := kids));
      st1[p := st1[p].(children := kids)]
  }

  /** Only the layer of `id` changes, and no parent is re-pointed. */
  lemma SetLayerLayers(st: Store, id: NodeId, v: int)
    requires Valid(st) && id in st
    ensures var r := SetLayer(st, id, v);
      && r[id].layer == v
      && (forall o :: o in st && o != id ==> r[o].layer == st[o].layer)
      && (forall o :: o in st ==> r[o].parent == st[o].parent)
      && (st[id].parent != Some(id) ==> r[id] == st[id].(layer := v))
      && (st[id].parent == Some(id) ==> r[id] == st[id].(layer := v, children := r[id].children))
      && (st[id].parent.Some? && st[id].parent.value != id ==>
            var p := st[id].parent.value;
            r[p] == st[p].(children := r[p].children))
  {
    var st1 := Relayered(st, id, v);
    var r := SetLayer(st, id, v);
    assert forall o :: o in st ==> r[o].layer == st1[o].layer && r[o].parent == st1[o].parent;
  }

  /**
   * No children array but the parent's is touched (none at all without a
   * parent), and no node but `id` and its parent changes.
   */
  lemma SetLayerKeepsOthers(st: Store, id: NodeId, v: int)
    requires Valid(st) && id in st
    ensures var r := SetLayer(st, id, v);
      && (forall o :: o in st && Some(o) != st[id].parent ==> r[o].children == st[o].children)
      && (forall o :: o in st && o != id && Some(o) != st[id].parent ==> r[o] == st[o])
  {
    var st1 := Relayered(st, id, v);
    var r := SetLayer(st, id, v);
    assert forall o :: o in st && Some(o) != st[id].parent ==> r[o] == st1[o];
  }

  /**
   * With a parent, its children end ascending by the new layers, as the
   * same multiset, with equal layers in their previous relative order;
   * and they are exactly what any stable sort by layer would produce.
   */
  lemma SetLayerSorts(st: Store, id: NodeId, v: int)
    requires Valid(st) && id in st && st[id].parent.Some?
    ensures var p := st[id].parent.value;
      var r := SetLayer(st, id, v);
      var key := LayerKey(Relayered(st, id, v));
      && SortedBy(r[p].children, key)
      && multiset(r[p].children) == multiset(st[p].children)
      && KeepsTies(r[p].children, st[p].children, key)
      && forall t :: SortedBy(t, key) && KeepsTies(t, st[p].children, key) ==> t == r[p].children
  {
    var p := st[id].parent.value;
    var st1 := Relayered(st, id, v);
    var key := LayerKey(st1);
    var kids := SetLayer(st, id, v)[p].children;
    assert kids == SortByKey(st1[p].children, key);
    assert st1[p].children == st[p].children;
    SortByKeyCorrect(st[p].children, key);
    forall t | SortedBy(t, key) && KeepsTies(t, st[p].children, key)
      ensures t == kids
    {
      StableSortUnique(t, kids, key);
    }
  }

  // ---------------------------------------------------------------------
  // Groups
  // ---------------------------------------------------------------------

  /**
   * `new ObjectGrouper(...sprites)`: a fresh Group node (a plain display
   * object of size 0 × 0) that then `addChild`s each sprite in turn.
   */
  function NewGroup(st: Store, g: NodeId, sprites: seq<NodeId>): (r: Store)
    requires Valid(st) && g !in st && forall i :: 0 <= i < |sprites| ==> sprites[i] in st
    ensures r.Keys == st.Keys + {g} && Valid(r)
  {
    ValidInsert(st, g, NewDisplayObject(Group, 0.0, 0.0));
    Add(st[g := NewDisplayObject(Group, 0.0, 0.0)], g, sprites)
  }

  /**
   * A group of distinct sprites has exactly those sprites as children, in
   * order, each with the group as parent.
   */
  lemma NewGroupChildren(st: Store, g: NodeId, sprites: seq<NodeId>)
    requires Valid(st) && g !in st && forall i :: 0 <= i < |sprites| ==> sprites[i] in st
    requires forall i, j :: 0 <= i < j < |sprites| ==> sprites[i] != sprites[j]
    ensures var r := NewGroup(st, g, sprites);
      && r[g].kind == Group
      && r[g].children == sprites
      && (forall i :: 0 <= i < |sprites| ==> r[sprites[i]].parent == Some(g))
  {
    var st0 := st[g := NewDisplayObject(Group, 0.0, 0.0)];
    ValidInsert(st, g, NewDisplayObject(Group, 0.0, 0.0));
    var r := NewGroup(st, g, sprites);
    forall i | 0 <= i < |sprites|
      ensures st0[sprites[i]].parent != Some(g)
    {
      assert st0[sprites[i]] == st[sprites[i]];
    }
    AddAppends(st0, g, sprites);
    forall i | 0 <= i < |sprites|
      ensures r[sprites[i]].parent == Some(g)
    {
      AddAdopts(st0, g, sprites, sprites[i]);
    }
    AddKeepsKinds(st0, g, sprites);
  }

  /** A group's size is the extent of its sprites' boxes, or 0 × 0 when there are none. */
  lemma NewGroupSize(st: Store, g: NodeId, sprites: seq<NodeId>)
    requires Valid(st) && g !in st && forall i :: 0 <= i < |sprites| ==> sprites[i] in st
    requires forall i, j :: 0 <= i < j < |sprites| ==> sprites[i] != sprites[j]
    ensures var r := NewGroup(st, g, sprites);
      && (sprites == [] ==> r[g].width == 0.0 && r[g].height == 0.0)
      && (sprites != [] ==>
            r[g].width == MaxReach(r, sprites, 0.0, ReachX) &&
            r[g].height == MaxReach(r, sprites, 0.0, ReachY))
  {
    var st0 := st[g := NewDisplayObject(Group, 0.0, 0.0)];
    ValidInsert(st, g, NewDisplayObject(Group, 0.0, 0.0));
    NewGroupChildren(st, g, sprites);
    if sprites != [] {
      AddSizesGroup(st0, g, sprites);
    }
  }
}

=== FILE: jsarray.dfy ===
/**
 * The few JavaScript array and string primitives the engine relies on,
 * with their exact edge cases: `indexOf` answers -1 for a missing element,
 * and `splice(start, 1)` counts a negative start from the end.
 */
module JsArray {

  /** `xs.indexOf(x)`: the first index holding `x`, or -1. */
  function IndexOf<T(==)>(xs: seq<T>, x: T): (r: int)
    ensures -1 <= r < |xs|
    ensures r == -1 <==> x !in xs
    ensures 0 <= r ==> xs[r] == x && x !in xs[..r]
  {
    if |xs| == 0 then -1
    else if xs[0] == x then 0
    else
      var k := IndexOf(xs[1..], x);
      if k == -1 then -1
      else
        assert xs[..k + 1] == [xs[0]] + xs[1..][..k];
        k + 1
  }

  /** `xs.lastIndexOf(x)`: the last index holding `x`, or -1. */
  function LastIndexOf<T(==)>(xs: seq<T>, x: T): (r: int)
    ensures -1 <= r < |xs|
    ensures r == -1 <==> x !in xs
    ensures 0 <= r ==> xs[r] == x && x !in xs[r + 1..]
  {
    if |xs| == 0 then -1
    else if xs[|xs| - 1] == x then |xs| - 1
    else
      var init := xs[..|xs| - 1];
      assert xs == init + [xs[|xs| - 1]];
      var k := LastIndexOf(init, x);
      if k == -1 then -1
      else
        assert xs[k + 1..] == init[k + 1..] + [xs[|xs| - 1]];
        k
  }

  /** The index `splice` actually starts at: a negative start counts from the end, clamped to 0. */
  function SpliceStart(len: nat, start: int): (a: nat)
    ensures a <= len
  {
    if start < 0 then (if len + start < 0 then 0 else len + start)
    else if start > len then len else start
  }

  /** `xs.splice(start, 1)` applied to `xs`: the array left behind. */
  function SpliceOne<T>(xs: seq<T>, start: int): (r: seq<T>)
    ensures |r| <= |xs|
  {
    var a := SpliceStart(|xs|, start);
    if a < |xs| then xs[..a] + xs[a + 1..] else xs
  }

  /**
   * What `splice(start, 1)` leaves: when the start lands inside the array,
   * one element fewer, the slots before it kept and the slots after it
   * moved down by one; a start past the end changes nothing.
   */
  lemma SpliceOneShifts<T>(xs: seq<T>, start: int)
    ensures var a := SpliceStart(|xs|, start);
      var r := SpliceOne(xs, start);
      && (a < |xs| ==> |r| == |xs| - 1)
      && (a < |xs| ==> forall i :: 0 <= i < a ==> r[i] == xs[i])
      && (a < |xs| ==> forall i :: a <= i < |r| ==> r[i] == xs[i + 1])
      && (a >= |xs| ==> r == xs)
  {
  }

  /** Splicing at a valid index removes exactly the element there. */
  lemma SpliceAt<T>(xs: seq<T>, i: nat)
    requires i < |xs|
    ensures multiset(SpliceOne(xs, i)) == multiset(xs) - multiset{xs[i]}
    ensures |SpliceOne(xs, i)| == |xs| - 1
  {
    assert xs == xs[..i] + [xs[i]] + xs[i + 1..];
    assert multiset(xs) == multiset(xs[..i]) + multiset{xs[i]} + multiset(xs[i + 1..]);
  }

  /**
   * `xs.splice(xs.indexOf(x), 1)`: removes the first `x` when present; when
   * `x` is missing the index is -1 and the LAST element goes instead
   * (nothing, on an empty array).
   */
  lemma SpliceIndexOf<T>(xs: seq<T>, x: T)
    ensures x in xs ==> multiset(SpliceOne(xs, IndexOf(xs, x))) == multiset(xs) - multiset{x}
    ensures x in xs ==> |SpliceOne(xs, IndexOf(xs, x))| == |xs| - 1
    ensures x !in xs && |xs| > 0 ==> SpliceOne(xs, IndexOf(xs, x)) == xs[..|xs| - 1]
    ensures x !in xs && |xs| == 0 ==> SpliceOne(xs, IndexOf(xs, x)) == xs
  {
    if x in xs {
      SpliceAt(xs, IndexOf(xs, x));
    }
  }
}

=== FILE: paths.dfy ===
/**
 * The string slicing the asset loader does on a source path: the file
 * extension (`split(".").pop()`), the font-family name
 * (`split("/").pop().split(".")[0]`) and an atlas's directory
 * (`replace(/[^\/]*$/, "")`), plus the extension classification.
 */
module Paths {
  import opened JsArray

  /** What `s.split(c).pop()` yields: the text after the last `c`, or all of `s`. */
  function AfterLast(s: string, c: char): (r: string)
    ensures c !in r
    ensures |r| <= |s| && s[|s| - |r|..] == r
    ensures c in s ==> |r| < |s| && s[|s| - |r| - 1] == c
    ensures c !in s ==> r == s
  {
    var i := LastIndexOf(s, c);
    if i == -1 then s else s[i + 1..]
  }

  /** What `s.split(c)[0]` yields: the text before the first `c`, or all of `s`. */
  function BeforeFirst(s: string, c: char): (r: string)
    ensures c !in r
    ensures |r| <= |s| && s[..|r|] == r
    ensures c in s ==> |r| < |s| && s[|r|] == c
    ensures c !in s ==> r == s
  {
    var i := IndexOf(s, c);
    if i == -1 then s else s[..i]
  }

  /** The piece after the last `c` of `prefix + [c] + tail` is `tail`, when `tail` has no `c`. */
  lemma AfterLastJoined(prefix: string, c: char, tail: string)
    requires c !in tail
    ensures AfterLast(prefix + [c] + tail, c) == tail
  {
    var s := prefix + [c] + tail;
    var r := AfterLast(s, c);
    assert s[|prefix|] == c;
    assert c in s;
    assert s[|s| - |tail|..] == tail;
  }

  /** The piece before the first `c` of `head + [c] + rest` is `head`, when `head` has no `c`. */
  lemma BeforeFirstJoined(head: string, c: char, rest: string)
    requires c !in head
    ensures BeforeFirst(head + [c] + rest, c) == head
  {
    var s := head + [c] + rest;
    var r := BeforeFirst(s, c);
    assert s[|head|] == c;
    assert c in s;
    assert s[..|head|] == head;
  }

  /** The extension `load` dispatches on: the text after the last `.`, or the whole source. */
  function Extension(source: string): (ext: string)
    ensures '.' !in ext
    ensures |ext| <= |source| && source[|source| - |ext|..] == ext
    ensures '.' !in source ==> ext == source
  {
    AfterLast(source, '.')
  }

  /** `stem.ext` has extension `ext`, whatever dots `stem` itself holds. */
  lemma ExtensionOfJoined(stem: string, ext: string)
    requires '.' !in ext
    ensures Extension(stem + "." + ext) == ext
  {
    AfterLastJoined(stem, '.', ext);
  }

  const ImageExtensions: seq<string> := ["png", "jpg", "gif"]
  const FontExtensions: seq<string> := ["ttf", "otf", "ttc", "woff"]
  const JsonExtensions: seq<string> := ["json"]
  const AudioExtensions: seq<string> := ["mp3", "ogg", "wav", "webm"]

  datatype FileClass = ImageFile | FontFile | JsonFile | AudioFile | Unrecognized

  /**
   * The `if … else if` chain of `load`: exact (case-sensitive) membership
   * of the extension, tried in the order image, font, JSON, audio.
   */
  function Classify(source: string): (k: FileClass)
    ensures k == ImageFile <==> Extension(source) in ImageExtensions
    ensures k == FontFile <==> Extension(source) !in ImageExtensions && Extension(source) in FontExtensions
    ensures k == JsonFile <==>
              Extension(source) !in ImageExtensions + FontExtensions && Extension(source) in JsonExtensions
    ensures k == AudioFile <==>
              Extension(source) !in ImageExtensions + FontExtensions + JsonExtensions &&
              Extension(source) in AudioExtensions
  {
    var ext := Extension(source);
    if IndexOf(ImageExtensions, ext) != -1 then ImageFile
    else if IndexOf(FontExtensions, ext) != -1 then FontFile
    else if IndexOf(JsonExtensions, ext) != -1 then JsonFile
    else if IndexOf(AudioExtensions, ext) != -1 then AudioFile
    else Unrecognized
  }

  /** Every recognized extension is written in lower case letters and digits. */
  predicate LowerCase(e: string) {
    forall i :: 0 <= i < |e| ==> 'a' <= e[i] <= 'z' || '0' <= e[i] <= '9'
  }

  /**
   * Matching is case-sensitive: a source whose extension holds an
   * upper-case letter is never recognized.
   */
  lemma UpperCaseUnrecognized(source: string, i: nat)
    requires i < |Extension(source)| && 'A' <= Extension(source)[i] <= 'Z'
    ensures Classify(source) == Unrecognized
  {
    var all := ImageExtensions + FontExtensions + JsonExtensions + AudioExtensions;
    assert forall e :: e in all ==> LowerCase(e);
    assert !LowerCase(Extension(source));
  }

  /** `loadFont`'s family name: the last `/`-segment, cut at its first `.`. */
  function FontFamily(source: string): (family: string)
    ensures '/' !in family && '.' !in family
  {
    BeforeFirst(AfterLast(source, '/'), '.')
  }

  /** A font at `dir/name.rest` (or `name.rest`) is registered as family `name`. */
  lemma FontFamilyOfPath(dir: string, name: string, rest: string)
    requires '/' !in name && '.' !in name && '/' !in rest
    requires dir == [] || dir[|dir| - 1] == '/'
    ensures FontFamily(dir + name + "." + rest) == name
  {
    var file := name + "." + rest;
    assert '/' !in file;
    if dir == [] {
      assert dir + name + "." + rest == file;
    } else {
      var d := dir[..|dir| - 1];
      assert dir + name + "." + rest == d + ['/'] + file;
      AfterLastJoined(d, '/', file);
    }
    BeforeFirstJoined(name, '.', rest);
  }

  /** The directory an atlas image is looked up in: the source without its trailing non-`/` run. */
  function BaseUrl(source: string): (base: string)
    ensures base + AfterLast(source, '/') == source
    ensures base == [] || base[|base| - 1] == '/'
  {
    var file := AfterLast(source, '/');
    var base := source[..|source| - |file|];
    assert source == base + file;
    base
  }

  /** The directory of `dir + file` is `dir`, for a file name without `/` and a directory ending in `/`. */
  lemma BaseUrlOfPath(dir: string, file: string)
    requires '/' !in file
    requires dir == [] || dir[|dir| - 1] == '/'
    ensures BaseUrl(dir + file) == dir
  {
    if dir == [] {
      assert dir + file == file;
    } else {
      var d := dir[..|dir| - 1];
      assert dir + file == d + ['/'] + file;
      AfterLastJoined(d, '/', file);
    }
  }
}

=== FILE: render.dfy ===
/**
 * `Pebble.render(canvas)`: the depth-first walk over the stage's children
 * that culls, transforms and draws each sprite. The canvas context is not
 * modelled; instead a walk yields the trace of context calls it makes, and
 * whether it ran to completion or was cut short by a thrown error.
 */
module Render {
  import opened Wrappers
  import opened Scene

  /** One call on the 2D context, in the order the walk issues them. */
  datatype Op =
    | Clear(width: real, height: real)       // clearRect(0, 0, w, h)
    | Save
    | Restore
    | Translate(dx: real, dy: real)
    | Rotate(angle: real)
    | SetAlpha(alpha: real)                  // globalAlpha = …
    | Scale(sx: real, sy: real)
    | SetBlend(mode: string)                 // globalCompositeOperation = …
    | Draw(id: NodeId)                       // the sprite's own `render(ctx)`

  /**
   * The calls made, and `ok == false` when the walk threw: reading
   * `alpha` of a missing parent (TypeError), the misspelt context name in
   * the shadow branch (ReferenceError), or unbounded recursion through a
   * cyclic parent chain or children arrays (stack overflow).
   */
  datatype Frame = Frame(ops: seq<Op>, ok: bool)

  /** Sprites whose class has a `render` method draw themselves. */
  predicate Draws(k: Kind) {
    k == Rect || k == Circle || k == Line || k == Text
  }

  /** The culling test of `displaySprite`, on global coordinates. */
  predicate InView(st: Store, id: NodeId, w: real, h: real)
    requires RootedIn(st, id)
  {
    var n := st[id];
    && Gx(st, id) < w + n.width
    && Gx(st, id) + n.width >= -n.width
    && Gy(st, id) < h + n.height
    && Gy(st, id) + n.height >= -n.height
  }

  /** After the save: move to the pivot and rotate. */
  function Pivoted(n: Node): seq<Op> {
    [Translate(n.x + n.width * n.look.pivotX, n.y + n.height * n.look.pivotY), Rotate(n.look.rotation)]
  }

  /**
   * The calls after the save up to the sprite's own drawing, for a sprite
   * with a parent and no shadow: pivot, rotate, alpha, scale, blend, draw.
   */
  function Styled(st: Store, id: NodeId): seq<Op>
    requires Valid(st) && id in st && st[id].parent.Some?
  {
    var n := st[id];
    Pivoted(n)
    + [SetAlpha(n.look.alpha * st[n.parent.value].look.alpha), Scale(n.look.scaleX, n.look.scaleY)]
    + (if n.look.blendMode != "" then [SetBlend(n.look.blendMode)] else [])
    + (if Draws(n.kind) then [Draw(id)] else [])
  }

  /** Before walking the children: undo the pivot offset. */
  function Unpivot(n: Node): Op {
    Translate(-n.width * n.look.pivotX, -n.height * n.look.pivotY)
  }

  /**
   * `displaySprite(id)`. `budget` holds the nodes not on the current
   * recursion path: meeting a node already on the path means the walk
   * would repeat forever, which ends in a stack overflow.
   */
  function Walk(st: Store, w: real, h: real, budget: set<NodeId>, id: NodeId): (r: Frame)
    requires Valid(st) && id in st
    decreases budget, 0, 0
  {
    var n := st[id];
    if id !in budget then Frame([], false)
    else if !n.look.visible then Frame([], true)
    else if !RootedIn(st, id) then Frame([], false)
    else if !InView(st, id, w, h) then Frame([], true)
    else if n.parent.None? then Frame([Save] + Pivoted(n), false)
    else if n.look.shadow then Frame([Save] + Styled(st, id)[..4], false)
    else if n.children == [] then Frame([Save] + Styled(st, id) + [Restore], true)
    else
      ChildrenInStore(st, id);
      var inner := WalkAll(st, w, h, budget - {id}, n.children);
      var upTo := [Save] + Styled(st, id) + [Unpivot(n)] + inner.ops;
      if inner.ok then Frame(upTo + [Restore], true) else Frame(upTo, false)
  }

  /** `children.forEach(displaySprite)`: the first throw abandons the rest. */
  function WalkAll(st: Store, w: real, h: real, budget: set<NodeId>, ids: seq<NodeId>): (r: Frame)
    requires Valid(st) && forall i :: 0 <= i < |ids| ==> ids[i] in st
    decreases budget, 1, |ids|
  {
    if ids == [] then Frame([], true)
    else
      var first := Walk(st, w, h, budget, ids[0]);
      if !first.ok then first
      else
        var rest := WalkAll(st, w, h, budget, ids[1..]);
        Frame(first.ops + rest.ops, rest.ok)
  }

  /** `Pebble.render(canvas)` for the given `stage` and canvas size. */
  function RenderStage(st: Store, stage: NodeId, w: real, h: real): (r: Frame)
    requires Valid(st) && stage in st
  {
    ChildrenInStore(st, stage);
    var body := WalkAll(st, w, h, st.Keys, st[stage].children);
    Frame([Clear(w, h)] + body.ops, body.ok)
  }

  // ---------------------------------------------------------------------
  // save/restore discipline
  // ---------------------------------------------------------------------

  /**
   * Replays the save/restore stack from depth `d`: the final depth, or
   * `None` if some `restore` found the stack empty.
   */
  function Settle(ops: seq<Op>, d: nat): (r: Option<nat>)
    decreases |ops|
  {
    if ops == [] then Some(d)
    else if ops[0] == Save then Settle(ops[1..], d + 1)
    else if ops[0] == Restore then (if d == 0 then None else Settle(ops[1..], d - 1))
    else Settle(ops[1..], d)
  }

  /** Replaying a concatenation replays the parts in turn. */
  lemma {:induction false} SettleAppend(a: seq<Op>, b: seq<Op>, d: nat)
    ensures Settle(a + b, d) == (match Settle(a, d) case None => None case Some(e) => Settle(b, e))
    decreases |a|
  {
    if a != [] {
      assert (a + b)[0] == a[0] && (a + b)[1..] == a[1..] + b;
      if a[0] == Save {
        SettleAppend(a[1..], b, d + 1);
      } else if a[0] == Restore {
        if d > 0 {
          SettleAppend(a[1..], b, d - 1);
        }
      } else {
        SettleAppend(a[1..], b, d);
      }
    } else {
      assert a + b == b;
    }
  }

  /** No call in `ops` touches the save/restore stack. */
  predicate Flat(ops: seq<Op>) {
    forall op :: op in ops ==> op != Save && op != Restore
  }

  /** Sequences without `Save` or `Restore` leave the depth alone. */
  lemma {:induction false} SettleFlat(ops: seq<Op>, d: nat)
    requires Flat(ops)
    ensures Settle(ops, d) == Some(d)
    decreases |ops|
  {
    if ops != [] {
      assert ops[0] in ops;
      assert forall op :: op in ops[1..] ==> op in ops;
      SettleFlat(ops[1..], d);
    }
  }

  /** A save followed by calls that leave the stack alone. */
  lemma SettleSaved(f: seq<Op>, d: nat)
    requires Flat(f)
    ensures Settle([Save] + f, d) == Some(d + 1)
  {
    SettleAppend([Save], f, d);
    assert [Save][1..] == [];
    SettleFlat(f, d + 1);
  }

  lemma StyledIsFlat(st: Store, id: NodeId)
    requires Valid(st) && id in st && st[id].parent.Some?
    ensures Flat(Styled(st, id)) && |Styled(st, id)| >= 4
  {
  }

  /**
   * A walk never restores more than it saved. When it completes, every
   * save it made is matched by a restore; when it throws, saves may be
   * left open, and the canvas state stays pushed.
   */
  lemma {:induction false} WalkNests(st: Store, w: real, h: real, budget: set<NodeId>, id: NodeId, d: nat)
    requires Valid(st) && id in st
    ensures var r := Walk(st, w, h, budget, id);
      && Settle(r.ops, d).Some?
      && Settle(r.ops, d).value >= d
      && (r.ok ==> Settle(r.ops, d) == Some(d))
    decreases budget, 0, 1
  {
    var n := st[id];
    if id in budget && n.look.visible && RootedIn(st, id) && InView(st, id, w, h) {
      if n.parent.None? {
        SettleSaved(Pivoted(n), d);
      } else if n.look.shadow {
        StyledIsFlat(st, id);
        var f := Styled(st, id);
        assert forall op :: op in f[..4] ==> op in f;
        SettleSaved(f[..4], d);
      } else if n.children == [] {
        StyledIsFlat(st, id);
        SettleSaved(Styled(st, id), d);
        SettleAppend([Save] + Styled(st, id), [Restore], d);
      } else {
        ParentNests(st, w, h, budget, id, d);
      }
    }
  }

  /** The case of a drawn sprite with children: the children's calls sit between the save and the restore. */
  lemma {:induction false} ParentNests(st: Store, w: real, h: real, budget: set<NodeId>, id: NodeId, d: nat)
    requires Valid(st) && id in st && id in budget
    requires st[id].look.visible && RootedIn(st, id) && InView(st, id, w, h)
    requires st[id].parent.Some? && !st[id].look.shadow && st[id].children != []
    ensures var r := Walk(st, w, h, budget, id);
      && Settle(r.ops, d).Some?
      && Settle(r.ops, d).value >= d
      && (r.ok ==> Settle(r.ops, d) == Some(d))
    decreases budget, 0, 0
  {
    var n := st[id];
    StyledIsFlat(st, id);
    var f := Styled(st, id);
    ChildrenInStore(st, id);
    var inner := WalkAll(st, w, h, budget - {id}, n.children);
    var g := f + [Unpivot(n)];
    SettleSaved(g, d);
    assert [Save] + f + [Unpivot(n)] == [Save] + g;
    WalkAllNests(st, w, h, budget - {id}, n.children, d + 1);
    SettleAppend([Save] + g, inner.ops, d);
    if inner.ok {
      SettleAppend([Save] + g + inner.ops, [Restore], d);
    }
  }

  lemma {:induction false} WalkAllNests(st: Store, w: real, h: real, budget: set<NodeId>, ids: seq<NodeId>, d: nat)
    requires Valid(st) && forall i :: 0 <= i < |ids| ==> ids[i] in st
    ensures var r := WalkAll(st, w, h, budget, ids);
      && Settle(r.ops, d).Some?
      && Settle(r.ops, d).value >= d
      && (r.ok ==> Settle(r.ops, d) == Some(d))
    decreases budget, 1, |ids|
  {
    if ids != [] {
      WalkNests(st, w, h, budget, ids[0], d);
      var first := Walk(st, w, h, budget, ids[0]);
      if first.ok {
        WalkAllNests(st, w, h, budget, ids[1..], d);
        SettleAppend(first.ops, WalkAll(st, w, h, budget, ids[1..]).ops, d);
      }
    }
  }

  /** A completed frame leaves the save/restore stack as it found it. */
  lemma RenderNests(st: Store, stage: NodeId, w: real, h: real)
    requires Valid(st) && stage in st
    ensures var r := RenderStage(st, stage, w, h);
      && r.ops[0] == Clear(w, h)
      && Settle(r.ops, 0).Some?
      && (r.ok ==> Settle(r.ops, 0) == Some(0))
  {
    ChildrenInStore(st, stage);
    var body := WalkAll(st, w, h, st.Keys, st[stage].children);
    WalkAllNests(st, w, h, st.Keys, st[stage].children, 0);
    SettleAppend([Clear(w, h)], body.ops, 0);
  }

  // ---------------------------------------------------------------------
  // what gets drawn
  // ---------------------------------------------------------------------

  /** The walk draws only visible sprites that pass the culling test and have a `render` method. */
  lemma {:induction false} WalkDrawsOnlyShown(st: Store, w: real, h: real, budget: set<NodeId>, id: NodeId, x: NodeId)
    requires Valid(st) && id in st
    requires Draw(x) in Walk(st, w, h, budget, id).ops
    ensures x in st && x in budget && st[x].look.visible && Draws(st[x].kind)
    ensures RootedIn(st, x) && InView(st, x, w, h)
    decreases budget, 0, 0
  {
    var n := st[id];
    if n.children != [] && id in budget && n.look.visible && RootedIn(st, id) &&
       InView(st, id, w, h) && n.parent.Some? && !n.look.shadow {
      ChildrenInStore(st, id);
      var inner := WalkAll(st, w, h, budget - {id}, n.children);
      if Draw(x) in inner.ops {
        WalkAllDrawsOnlyShown(st, w, h, budget - {id}, n.children, x);
      }
    }
  }

  lemma {:induction false} WalkAllDrawsOnlyShown(st: Store, w: real, h: real, budget: set<NodeId>, ids: seq<NodeId>, x: NodeId)
    requires Valid(st) && forall i :: 0 <= i < |ids| ==> ids[i] in st
    requires Draw(x) in WalkAll(st, w, h, budget, ids).ops
    ensures x in st && x in budget && st[x].look.visible && Draws(st[x].kind)
    ensures RootedIn(st, x) && InView(st, x, w, h)
    decreases budget, 1, |ids|
  {
    var first := Walk(st, w, h, budget, ids[0]);
    if Draw(x) in first.ops {
      WalkDrawsOnlyShown(st, w, h, budget, ids[0], x);
    } else {
      WalkAllDrawsOnlyShown(st, w, h, budget, ids[1..], x);
    }
  }

  /**
   * A sprite's walk contains its own draw call exactly when it is not
   * already on the recursion path, visible, on a finite parent chain, inside
   * the culling window, parented, unshadowed, and of a class that draws.
   */
  lemma SpriteDrawsIff(st: Store, w: real, h: real, budget: set<NodeId>, id: NodeId)
    requires Valid(st) && id in st
    ensures Draw(id) in Walk(st, w, h, budget, id).ops <==>
      && id in budget && st[id].look.visible && Draws(st[id].kind)
      && RootedIn(st, id) && InView(st, id, w, h)
      && st[id].parent.Some? && !st[id].look.shadow
  {
    if Draw(id) in Walk(st, w, h, budget, id).ops {
      WalkDrawsOnlyShown(st, w, h, budget, id, id);
      DrawnSpriteFrame(st, w, h, budget, id);
    }
  }

  // ---------------------------------------------------------------------
  // draw order
  // ---------------------------------------------------------------------

  /** A drawing sprite's styling ends in its own draw call and holds no other. */
  lemma StyledDrawsLast(st: Store, id: NodeId)
    requires Valid(st) && id in st && st[id].parent.Some? && Draws(st[id].kind)
    ensures var f := Styled(st, id);
      && |f| >= 5 && f[|f| - 1] == Draw(id)
      && forall k :: 0 <= k < |f| - 1 ==> !f[k].Draw?
  {
    var f := Styled(st, id);
    assert f[0].Translate? && f[1].Rotate? && f[2].SetAlpha? && f[3].Scale?;
    if st[id].look.blendMode != "" {
      assert f[4].SetBlend?;
    }
  }

  /**
   * Pre-order: a sprite that draws itself does so before anything in its
   * subtree, since its own draw call is the first one its walk makes.
   */
  lemma OwnDrawComesFirst(st: Store, w: real, h: real, budget: set<NodeId>, id: NodeId)
    requires Valid(st) && id in st
    requires Draw(id) in Walk(st, w, h, budget, id).ops
    ensures var ops := Walk(st, w, h, budget, id).ops;
      exists d :: 0 <= d < |ops| && ops[d] == Draw(id) && forall k :: 0 <= k < d ==> !ops[k].Draw?
  {
    SpriteDrawsIff(st, w, h, budget, id);
    var n := st[id];
    var f := Styled(st, id);
    StyledDrawsLast(st, id);
    var head := [Save] + f;
    var ops := Walk(st, w, h, budget, id).ops;
    if n.children == [] {
      assert ops == head + [Restore];
    } else {
      ChildrenInStore(st, id);
      var inner := WalkAll(st, w, h, budget - {id}, n.children);
      var tail := [Unpivot(n)] + inner.ops + (if inner.ok then [Restore] else []);
      assert ops == head + tail;
    }
    var d := |f|;
    assert ops[d] == head[d] == f[d - 1];
    forall k | 0 <= k < d
      ensures !ops[k].Draw?
    {
      assert ops[k] == head[k];
      if k > 0 {
        assert head[k] == f[k - 1];
      }
    }
  }

  /** The walks of a run of siblings, each taken on its own. */
  function Walks(st: Store, w: real, h: real, budget: set<NodeId>, ids: seq<NodeId>): (r: seq<Frame>)
    requires Valid(st) && forall k :: 0 <= k < |ids| ==> ids[k] in st
    ensures |r| == |ids| && forall k :: 0 <= k < |ids| ==> r[k] == Walk(st, w, h, budget, ids[k])
  {
    if ids == [] then [] else [Walk(st, w, h, budget, ids[0])] + Walks(st, w, h, budget, ids[1..])
  }

  /**
   * The children loop over walks already taken: it appends each trace and
   * stops after the first that throws.
   */
  function Loop(fs: seq<Frame>): Frame {
    if fs == [] then Frame([], true)
    else if !fs[0].ok then fs[0]
    else var rest := Loop(fs[1..]); Frame(fs[0].ops + rest.ops, rest.ok)
  }

  /** Walking the children is looping over their separate walks. */
  lemma {:induction false} WalkAllIsLoop(st: Store, w: real, h: real, budget: set<NodeId>, ids: seq<NodeId>)
    requires Valid(st) && forall k :: 0 <= k < |ids| ==> ids[k] in st
    ensures WalkAll(st, w, h, budget, ids) == Loop(Walks(st, w, h, budget, ids))
    decreases |ids|
  {
    if ids != [] {
      WalkAllIsLoop(st, w, h, budget, ids[1..]);
      assert Walks(st, w, h, budget, ids)[1..] == Walks(st, w, h, budget, ids[1..]);
    }
  }

  /** A loop that gets past its first `j` walks is the loop over those, then the loop over the rest. */
  lemma {:induction false} LoopSplits(fs: seq<Frame>, j: nat)
    requires j <= |fs| && Loop(fs[..j]).ok
    ensures Loop(fs).ops == Loop(fs[..j]).ops + Loop(fs[j..]).ops
    decreases j
  {
    if j == 0 {
      assert fs[..0] == [] && fs[0..] == fs;
    } else {
      assert fs[..j][1..] == fs[1..][..j - 1] && fs[1..][j - 1..] == fs[j..];
      LoopSplits(fs[1..], j - 1);
    }
  }

  /** A loop that completes holds every trace it looped over. */
  lemma {:induction false} LoopIncludes(fs: seq<Frame>, i: nat, x: NodeId)
    requires i < |fs| && Loop(fs).ok && Draw(x) in fs[i].ops
    ensures Draw(x) in Loop(fs).ops
    decreases i
  {
    if i > 0 {
      LoopIncludes(fs[1..], i - 1, x);
    }
  }

  /**
   * The children loop, once it gets past the first `j` children, is the
   * loop over those followed by the loop over the rest.
   */
  lemma SplitLoop(st: Store, w: real, h: real, budget: set<NodeId>, ids: seq<NodeId>, j: nat)
    requires Valid(st) && forall k :: 0 <= k < |ids| ==> ids[k] in st
    requires j <= |ids| && WalkAll(st, w, h, budget, ids[..j]).ok
    ensures WalkAll(st, w, h, budget, ids).ops == WalkAll(st, w, h, budget, ids[..j]).ops + WalkAll(st, w, h, budget, ids[j..]).ops
  {
    var fs := Walks(st, w, h, budget, ids);
    WalkAllIsLoop(st, w, h, budget, ids);
    WalkAllIsLoop(st, w, h, budget, ids[..j]);
    WalkAllIsLoop(st, w, h, budget, ids[j..]);
    assert Walks(st, w, h, budget, ids[..j]) == fs[..j];
    assert Walks(st, w, h, budget, ids[j..]) == fs[j..];
    LoopSplits(fs, j);
  }

  /** A loop that completes has every child's walk inside its trace. */
  lemma OkLoopIncludes(st: Store, w: real, h: real, budget: set<NodeId>, ids: seq<NodeId>, i: nat, x: NodeId)
    requires Valid(st) && forall k :: 0 <= k < |ids| ==> ids[k] in st
    requires i < |ids| && WalkAll(st, w, h, budget, ids).ok
    requires Draw(x) in Walk(st, w, h, budget, ids[i]).ops
    ensures Draw(x) in WalkAll(st, w, h, budget, ids).ops
  {
    WalkAllIsLoop(st, w, h, budget, ids);
    LoopIncludes(Walks(st, w, h, budget, ids), i, x);
  }

  /** A draw call in each half of a trace: the first half's comes first. */
  lemma DrawsAcross(a: seq<Op>, b: seq<Op>, x: NodeId, y: NodeId)
    requires Draw(x) in a && Draw(y) in b
    ensures exists p, q :: 0 <= p < q < |a + b| && (a + b)[p] == Draw(x) && (a + b)[q] == Draw(y)
  {
    var p :| 0 <= p < |a| && a[p] == Draw(x);
    var q :| 0 <= q < |b| && b[q] == Draw(y);
    assert (a + b)[p] == Draw(x) && (a + b)[|a| + q] == Draw(y);
  }

  /**
   * Siblings in array order: once the loop reaches `ids[j]`, its trace
   * splits at a point `s` into the loop over `ids[..j]`, which holds every
   * draw of each earlier sibling's walk, and a rest that starts with
   * `ids[j]`'s whole walk. So every draw of an earlier sibling precedes
   * every draw of `ids[j]`.
   */
  lemma SiblingsDrawInOrder(st: Store, w: real, h: real, budget: set<NodeId>, ids: seq<NodeId>,
                            i: nat, j: nat, x: NodeId, y: NodeId)
    requires Valid(st) && forall k :: 0 <= k < |ids| ==> ids[k] in st
    requires i < j < |ids| && WalkAll(st, w, h, budget, ids[..j]).ok
    requires Draw(x) in Walk(st, w, h, budget, ids[i]).ops
    requires Draw(y) in Walk(st, w, h, budget, ids[j]).ops
    ensures var ops := WalkAll(st, w, h, budget, ids).ops;
      exists s :: 0 <= s <= |ops| && ops[..s] == WalkAll(st, w, h, budget, ids[..j]).ops
        && Draw(x) in ops[..s] && Draw(y) in ops[s..] && Walk(st, w, h, budget, ids[j]).ops <= ops[s..]
    ensures var ops := WalkAll(st, w, h, budget, ids).ops;
      exists p, q :: 0 <= p < q < |ops| && ops[p] == Draw(x) && ops[q] == Draw(y)
  {
    SplitLoop(st, w, h, budget, ids, j);
    assert ids[..j][i] == ids[i] && ids[j..][0] == ids[j];
    OkLoopIncludes(st, w, h, budget, ids[..j], i, x);
    var ops := WalkAll(st, w, h, budget, ids).ops;
    var a, b := WalkAll(st, w, h, budget, ids[..j]).ops, WalkAll(st, w, h, budget, ids[j..]).ops;
    assert Walk(st, w, h, budget, ids[j]).ops <= b;
    assert ops[..|a|] == a && ops[|a|..] == b;
    DrawsAcross(a, b, x, y);
  }

  /** A hidden sprite, or one outside the culling window, contributes nothing, nor does its subtree. */
  lemma SkippedSpriteIsSilent(st: Store, w: real, h: real, budget: set<NodeId>, id: NodeId)
    requires Valid(st) && id in st && id in budget && RootedIn(st, id)
    requires !st[id].look.visible || !InView(st, id, w, h)
    ensures Walk(st, w, h, budget, id) == Frame([], true)
  {
  }

  /**
   * A shown sprite without a parent (its `parent.alpha` read throws), or
   * with `shadow` set (the shadow branch names an undeclared context),
   * throws after the save, the translation and the rotation: it never
   * draws, and the walk stops.
   */
  lemma FaultingSpriteThrows(st: Store, w: real, h: real, budget: set<NodeId>, id: NodeId)
    requires Valid(st) && id in st && id in budget && RootedIn(st, id)
    requires st[id].look.visible && InView(st, id, w, h)
    requires st[id].parent.None? || st[id].look.shadow
    ensures var r := Walk(st, w, h, budget, id);
      && !r.ok && Draw(id) !in r.ops
      && r.ops[..3] == [Save] + Pivoted(st[id])
  {
    if st[id].parent.Some? {
      StyledIsFlat(st, id);
      var f := Styled(st, id);
      assert f[..4] == Pivoted(st[id]) + [f[2], f[3]];
    }
  }

  /**
   * A drawn sprite's own draw call is preceded by the save and by an alpha
   * that multiplies its own alpha with its immediate parent's, and nothing
   * else: the grandparent's alpha plays no part.
   */
  lemma DrawnSpriteFrame(st: Store, w: real, h: real, budget: set<NodeId>, id: NodeId)
    requires Valid(st) && id in st
    requires Draw(id) in Walk(st, w, h, budget, id).ops
    ensures st[id].parent.Some? && !st[id].look.shadow
    ensures var r := Walk(st, w, h, budget, id);
      && r.ops[0] == Save
      && r.ops[3] == SetAlpha(st[id].look.alpha * st[st[id].parent.value].look.alpha)
      && Draw(id) in Styled(st, id)
  {
    var n := st[id];
    if n.children != [] && id in budget && n.look.visible && RootedIn(st, id) &&
       InView(st, id, w, h) && n.parent.Some? && !n.look.shadow {
      ChildrenInStore(st, id);
      var inner := WalkAll(st, w, h, budget - {id}, n.children);
      if Draw(id) in inner.ops {
        WalkAllDrawsOnlyShown(st, w, h, budget - {id}, n.children, id);
      }
    }
  }
}

=== FILE: scene.dfy ===
/**
 * The display-object tree of the Pebble2d engine as an arena: every node
 * lives in a store keyed by identity, holds an optional back-reference to
 * its parent and an ordered array of child identities. JavaScript object
 * mutation becomes a function from the old store to the new one.
 */
module Scene {
  import opened Wrappers
  import opened JsArray
  import opened StableSort

  type NodeId = int

  /** Which constructor built the node; the kind decides `render` and the Group overrides. */
  datatype Kind = Plain | Rect | Circle | Line | Text | Group

  /**
   * The compositing state a node hands to the renderer. An empty
   * `blendMode` stands for the falsy `undefined`.
   */
  datatype Look = Look(
    rotation: real, alpha: real, visible: bool,
    scaleX: real, scaleY: real, pivotX: real, pivotY: real,
    shadow: bool, blendMode: string)

  /**
   * One display object. Paint attributes (fill, stroke, font, endpoints)
   * never influence the tree or the traversal and are not carried.
   * `ownDiameter` and `ownRadius` are the plain data properties an
   * assignment to `diameter` or `radius` creates while the sprite is not
   * circular (no accessor is installed then to intercept it).
   */
  datatype Node = Node(
    kind: Kind,
    x: real, y: real, width: real, height: real,
    look: Look,
    layer: int,
    circular: bool,
    ownDiameter: Option<real>, ownRadius: Option<real>,
    childIndex: Option<int>,
    parent: Option<NodeId>,
    children: seq<NodeId>)

  type Store = map<NodeId, Node>

  datatype TreeError =
    | NotAChild(child: NodeId, container: NodeId)   // removeChild on a non-parent
    | NotChildren(container: NodeId)                // swapChildren with an absent child

  /** Every reference held by a node names a node of the store (a JavaScript reference is never dangling). */
  ghost predicate Valid(st: Store) {
    && (forall id :: id in st && st[id].parent.Some? ==> st[id].parent.value in st)
    && (forall id, c :: id in st && c in st[id].children ==> c in st)
  }

  /** In a valid store every slot of a node's children array names a node of the store. */
  lemma ChildrenInStore(st: Store, id: NodeId)
    requires Valid(st) && id in st
    ensures forall i :: 0 <= i < |st[id].children| ==> st[id].children[i] in st
  {
    forall i | 0 <= i < |st[id].children| ensures st[id].children[i] in st {
      var c := st[id].children[i];
      assert c in st[id].children;
    }
  }

  /** Storing a fresh node with no parent and no children keeps the store valid. */
  lemma ValidInsert(st: Store, k: NodeId, n: Node)
    requires Valid(st) && k !in st
    requires n.parent.None? && n.children == []
    ensures Valid(st[k := n])
  {
    var r := st[k := n];
    forall id, c | id in r && c in r[id].children
      ensures c in r
    {
      if id != k {
        assert r[id] == st[id];
      }
    }
  }

  /** Overwriting a node whose references stay inside the store keeps the store valid. */
  lemma ValidUpdate(st: Store, k: NodeId, n: Node)
    requires Valid(st) && k in st
    requires n.parent.Some? ==> n.parent.value in st
    requires forall c :: c in n.children ==> c in st
    ensures Valid(st[k := n])
  {
    var r := st[k := n];
    forall id, c | id in r && c in r[id].children
      ensures c in r
    {
      if id != k {
        assert r[id] == st[id];
      }
    }
  }

  // ---------------------------------------------------------------------
  // Construction
  // ---------------------------------------------------------------------

  /** The `DisplayObject` constructor's defaults. */
  function NewDisplayObject(kind: Kind, width: real, height: real): (n: Node)
    ensures n.kind == kind && n.width == width && n.height == height
    ensures n.x == 0.0 && n.y == 0.0 && n.look.alpha == 1.0 && n.look.visible
    ensures n.parent == None && n.children == [] && n.layer == 0 && !n.circular
    ensures Diameter(n) == None && Radius(n) == None
  {
    Node(kind, 0.0, 0.0, width, height,
         Look(0.0, 1.0, true, 1.0, 1.0, 0.5, 0.5, false, ""),
         0, false, None, None, None, None, [])
  }

  /** `Pebble.createStage(width, height)`. */
  function NewStage(width: real, height: real): (n: Node)
    ensures n.kind == Plain && n.width == width && n.height == height
    ensures n.parent == None && n.children == []
  {
    NewDisplayObject(Plain, width, height)
  }

  /** `new RectangleCanvasObject(width, height, …, x, y)`. */
  function NewRectangle(width: real, height: real, x: real, y: real): (n: Node)
    ensures n.kind == Rect && n.width == width && n.height == height && n.x == x && n.y == y
    ensures n.parent == None && n.children == [] && !n.circular
  {
    NewDisplayObject(Rect, 0.0, 0.0).(width := width, height := height, x := x, y := y)
  }

  /** `new LineCanvasObject(…)`: a line keeps the zero-sized box of a bare display object. */
  function NewLine(): (n: Node)
    ensures n.kind == Line && n.width == 0.0 && n.height == 0.0 && n.x == 0.0 && n.y == 0.0
  {
    NewDisplayObject(Line, 0.0, 0.0)
  }

  /** `new TextCanvasObject(content, font, fillStyle, x, y)`: zero size until first measured. */
  function NewText(x: real, y: real): (n: Node)
    ensures n.kind == Text && n.width == 0.0 && n.height == 0.0 && n.x == x && n.y == y
  {
    NewDisplayObject(Text, 0.0, 0.0).(x := x, y := y)
  }

  // ---------------------------------------------------------------------
  // The circular view
  // ---------------------------------------------------------------------

  /**
   * The `circular` setter: acts only on a change of state and never touches
   * the box. Switching on installs the `diameter`/`radius` accessors, which
   * replace any plain property of those names; switching off deletes them.
   */
  function SetCircular(n: Node, value: bool): (r: Node)
    ensures r.circular == value
    ensures r.width == n.width && r.height == n.height
    ensures value == n.circular ==> r == n
    ensures value != n.circular ==> r.ownDiameter.None? && r.ownRadius.None?
    ensures r.(circular := n.circular, ownDiameter := n.ownDiameter, ownRadius := n.ownRadius) == n
  {
    if value && !n.circular then n.(circular := true, ownDiameter := None, ownRadius := None)
    else if !value && n.circular then n.(circular := false, ownDiameter := None, ownRadius := None)
    else n
  }

  /**
   * Reading `diameter`: the width while circular; otherwise whatever plain
   * property an earlier assignment left, or `undefined`.
   */
  function Diameter(n: Node): (d: Option<real>)
    ensures n.circular ==> d == Some(n.width)
    ensures !n.circular ==> d == n.ownDiameter
  {
    if n.circular then Some(n.width) else n.ownDiameter
  }

  /** Reading `radius`: half the width while circular; otherwise the plain property, or `undefined`. */
  function Radius(n: Node): (r: Option<real>)
    ensures n.circular ==> r.Some? && r.value * 2.0 == Diameter(n).value
    ensures !n.circular ==> r == n.ownRadius
  {
    if n.circular then Some(HalfWidth(n)) else n.ownRadius
  }

  /**
   * Assigning `diameter`: a square box of that side while circular; otherwise
   * a plain property is written and the box is left alone. Either way the
   * value reads back, and `radius` is touched only through the box.
   */
  function SetDiameter(n: Node, d: real): (r: Node)
    ensures Diameter(r) == Some(d)
    ensures n.circular ==> r.width == d && r.height == d && Radius(r) == Some(d / 2.0)
    ensures !n.circular ==> r.width == n.width && r.height == n.height && Radius(r) == Radius(n)
    ensures r.circular == n.circular && r.ownRadius == n.ownRadius
    ensures r.(width := n.width, height := n.height, ownDiameter := n.ownDiameter) == n
  {
    if n.circular then n.(width := d, height := d) else n.(ownDiameter := Some(d))
  }

  /**
   * Assigning `radius`: a square box of side `2r` while circular; otherwise
   * a plain property is written and the box is left alone.
   */
  function SetRadius(n: Node, radius: real): (r: Node)
    ensures Radius(r) == Some(radius)
    ensures n.circular ==> r.width == 2.0 * radius && r.height == 2.0 * radius && Diameter(r) == Some(2.0 * radius)
    ensures !n.circular ==> r.width == n.width && r.height == n.height && Diameter(r) == Diameter(n)
    ensures r.circular == n.circular && r.ownDiameter == n.ownDiameter
    ensures r.(width := n.width, height := n.height, ownRadius := n.ownRadius) == n
  {
    if n.circular then n.(width := radius * 2.0, height := radius * 2.0) else n.(ownRadius := Some(radius))
  }

  /**
   * While circular the accessors read back what was written, and switching
   * off deletes them but keeps the box they wrote.
   */
  lemma CircularRoundTrip(n: Node, d: real, radius: real)
    requires n.circular
    ensures Diameter(SetDiameter(n, d)) == Some(d)
    ensures Radius(SetDiameter(n, d)) == Some(d / 2.0)
    ensures Radius(SetRadius(n, radius)) == Some(radius)
    ensures Diameter(SetRadius(n, radius)) == Some(2.0 * radius)
    ensures Diameter(SetCircular(SetDiameter(n, d), false)) == None
    ensures SetCircular(SetDiameter(n, d), false).width == d
  {
  }

  /**
   * Before the sprite is circular, an assigned `diameter` is a plain value
   * that reads back but sizes nothing; switching `circular` on replaces it
   * with the accessor (which reads the width), and switching off again
   * leaves no `diameter` at all.
   */
  lemma StrayDiameter(n: Node, d: real)
    requires !n.circular
    ensures var m := SetDiameter(n, d);
      && Diameter(m) == Some(d) && m.width == n.width && m.height == n.height
      && Diameter(SetCircular(m, false)) == Some(d)
      && Diameter(SetCircular(m, true)) == Some(n.width)
      && Diameter(SetCircular(SetCircular(m, true), false)) == None
  {
  }

  /** `new CircleCanvasObject(diameter, …, x, y)`: circular, with a square box of side `diameter`. */
  function NewCircle(diameter: real, x: real, y: real): (n: Node)
    ensures n.kind == Circle && n.circular
    ensures n.width == diameter && n.height == diameter
    ensures Diameter(n) == Some(diameter) && Radius(n) == Some(diameter / 2.0)
    ensures n.x == x && n.y == y && n.parent == None && n.children == []
  {
    SetDiameter(SetCircular(NewDisplayObject(Circle, 0.0, 0.0), true), diameter).(x := x, y := y)
  }

  // ---------------------------------------------------------------------
  // Geometry getters and placement helpers
  // ---------------------------------------------------------------------

  function HalfWidth(n: Node): (h: real)
    ensures h + h == n.width
  {
    n.width / 2.0
  }

  function HalfHeight(n: Node): (h: real)
    ensures h + h == n.height
  {
    n.height / 2.0
  }

  /** The horizontal centre: equally far from the left and the right edge. */
  function CenterX(n: Node): (c: real)
    ensures c - n.x == n.x + n.width - c
  {
    n.x + HalfWidth(n)
  }

  /** The vertical centre: equally far from the top and the bottom edge. */
  function CenterY(n: Node): (c: real)
    ensures c - n.y == n.y + n.height - c
  {
    n.y + HalfHeight(n)
  }

  datatype Bounds = Bounds(x: real, y: real, width: real, height: real)

  /** `localBounds`: the box in the node's own coordinates, anchored at the origin. */
  function LocalBounds(n: Node): (b: Bounds)
    ensures b.x == 0.0 && b.y == 0.0 && b.width == n.width && b.height == n.height
  {
    Bounds(0.0, 0.0, n.width, n.height)
  }

  /** `empty`: no children. */
  function IsEmpty(n: Node): (e: bool)
    ensures e <==> n.children == []
  {
    |n.children| == 0
  }

  /** `setPosition(x, y)` on node `id`; nothing else in the store changes. */
  function SetPosition(st: Store, id: NodeId, x: real, y: real): (r: Store)
    requires id in st
    ensures r.Keys == st.Keys
    ensures r[id] == st[id].(x := x, y := y)
    ensures forall o :: o in st && o != id ==> r[o] == st[o]
  {
    st[id := st[id].(x := x, y := y)]
  }

  /**
   * `a.putCenter(b, xOffset, yOffset)`: `b` centred on `a`, shifted by the
   * offsets. Only `b` moves; the y result never reads an x value, so the
   * record form is also right when `a` and `b` are one object.
   */
  function PutCenter(a: Node, b: Node, xOffset: real, yOffset: real): (r: Node)
    ensures CenterX(r) == CenterX(a) + xOffset && CenterY(r) == CenterY(a) + yOffset
    ensures r == b.(x := r.x, y := r.y)
  {
    b.(x := a.x + HalfWidth(a) - HalfWidth(b) + xOffset,
       y := a.y + HalfHeight(a) - HalfHeight(b) + yOffset)
  }

  /** `a.putTop(b, …)`: `b` horizontally centred on `a`, its bottom edge on `a`'s top edge. */
  function PutTop(a: Node, b: Node, xOffset: real, yOffset: real): (r: Node)
    ensures CenterX(r) == CenterX(a) + xOffset
    ensures r.y + r.height == a.y + yOffset
    ensures r == b.(x := r.x, y := r.y)
  {
    b.(x := a.x + HalfWidth(a) - HalfWidth(b) + xOffset,
       y := a.y - b.height + yOffset)
  }

  /** `a.putRight(b, …)`: `b`'s left edge on `a`'s right edge, vertically centred. */
  function PutRight(a: Node, b: Node, xOffset: real, yOffset: real): (r: Node)
    ensures r.x - xOffset == a.x + a.width
    ensures CenterY(r) == CenterY(a) + yOffset
    ensures r == b.(x := r.x, y := r.y)
  {
    b.(x := a.x + a.width + xOffset,
       y := a.y + HalfHeight(a) - HalfHeight(b) + yOffset)
  }

  /** `a.putBottom(b, …)`: `b` horizontally centred, its top edge on `a`'s bottom edge. */
  function PutBottom(a: Node, b: Node, xOffset: real, yOffset: real): (r: Node)
    ensures CenterX(r) == CenterX(a) + xOffset
    ensures r.y - yOffset == a.y + a.height
    ensures r == b.(x := r.x, y := r.y)
  {
    b.(x := a.x + HalfWidth(a) - HalfWidth(b) + xOffset,
       y := a.y + a.height + yOffset)
  }

  /** `a.putLeft(b, …)`: `b`'s right edge on `a`'s left edge, vertically centred. */
  function PutLeft(a: Node, b: Node, xOffset: real, yOffset: real): (r: Node)
    ensures r.x + r.width == a.x + xOffset
    ensures CenterY(r) == CenterY(a) + yOffset
    ensures r == b.(x := r.x, y := r.y)
  {
    b.(x := a.x - b.width + xOffset,
       y := a.y + HalfHeight(a) - HalfHeight(b) + yOffset)
  }

  // ---------------------------------------------------------------------
  // Live global position
  // ---------------------------------------------------------------------

  /**
   * Following `parent` from `id` reaches a root without revisiting a node.
   * Each step continues in the store without the node just left, so a
   * cyclic chain (possible: `addChild` has no cycle check) fails the test.
   */
  predicate RootedIn(st: Store, id: NodeId)
    decreases st.Keys
  {
    id in st &&
    match st[id].parent
    case None => true
    case Some(p) => RootedIn(st - {id}, p)
  }

  /** The `gx`/`gy` recursion for a coordinate `f`: own value plus the parent's global value. */
  function GlobalSum(st: Store, id: NodeId, f: Node -> real): real
    requires RootedIn(st, id)
    decreases st.Keys
  {
    match st[id].parent
    case None => f(st[id])
    case Some(p) => f(st[id]) + GlobalSum(st - {id}, p, f)
  }

  function XOf(n: Node): real { n.x }
  function YOf(n: Node): real { n.y }

  /** `gx`: the local x plus the parent's `gx`, or just x at a root. */
  function Gx(st: Store, id: NodeId): (g: real)
    requires RootedIn(st, id)
    ensures st[id].parent.None? ==> g == st[id].x
  {
    GlobalSum(st, id, XOf)
  }

  /** `gy`: the local y plus the parent's `gy`, or just y at a root. */
  function Gy(st: Store, id: NodeId): (g: real)
    requires RootedIn(st, id)
    ensures st[id].parent.None? ==> g == st[id].y
  {
    GlobalSum(st, id, YOf)
  }

  /** The parent chain `[id, parent, grandparent, …, root]`. */
  function Ancestry(st: Store, id: NodeId): (a: seq<NodeId>)
    requires RootedIn(st, id)
    ensures |a| > 0 && a[0] == id
    ensures forall i :: 0 <= i < |a| ==> a[i] in st
    ensures forall i, j :: 0 <= i < j < |a| ==> a[i] != a[j]
    decreases st.Keys
  {
    match st[id].parent
    case None => [id]
    case Some(p) =>
      var rest := Ancestry(st - {id}, p);
      assert forall i :: 0 <= i < |rest| ==> rest[i] in st - {id};
      [id] + rest
  }

  /** Sum of `f` over the nodes `ids` of `st`. */
  function SumOver(st: Store, ids: seq<NodeId>, f: Node -> real): real
    requires forall i :: 0 <= i < |ids| ==> ids[i] in st
  {
    if ids == [] then 0.0 else f(st[ids[0]]) + SumOver(st, ids[1..], f)
  }

  lemma {:induction false} SumOverAgree(st: Store, sub: Store, ids: seq<NodeId>, f: Node -> real)
    requires forall i :: 0 <= i < |ids| ==> ids[i] in sub && ids[i] in st && sub[ids[i]] == st[ids[i]]
    ensures SumOver(sub, ids, f) == SumOver(st, ids, f)
  {
    if ids != [] {
      SumOverAgree(st, sub, ids[1..], f);
    }
  }

  /**
   * The global position is the sum of the local positions along the whole
   * parent chain, the root's included.
   */
  lemma {:induction false} GlobalIsChainSum(st: Store, id: NodeId, f: Node -> real)
    requires RootedIn(st, id)
    ensures GlobalSum(st, id, f) == SumOver(st, Ancestry(st, id), f)
    decreases st.Keys
  {
    match st[id].parent
    case None =>
    case Some(p) =>
      var sub := st - {id};
      var rest := Ancestry(sub, p);
      GlobalIsChainSum(sub, p, f);
      SumOverAgree(st, sub, rest, f);
      assert Ancestry(st, id)[1..] == rest;
  }

  /** Two stores with the same nodes and the same parent links. */
  ghost predicate SameLinks(st: Store, st2: Store) {
    st2.Keys == st.Keys && forall k :: k in st ==> st2[k].parent == st[k].parent
  }

  /** Rootedness and the parent chain depend on the parent links alone. */
  lemma {:induction false} ChainDependsOnLinks(st: Store, st2: Store, id: NodeId)
    requires SameLinks(st, st2) && RootedIn(st, id)
    ensures RootedIn(st2, id) && Ancestry(st2, id) == Ancestry(st, id)
    decreases st.Keys
  {
    match st[id].parent
    case None =>
    case Some(p) =>
      assert SameLinks(st - {id}, st2 - {id});
      ChainDependsOnLinks(st - {id}, st2 - {id}, p);
  }

  lemma {:induction false} SumOverUpdate(st: Store, ids: seq<NodeId>, a: NodeId, n: Node, f: Node -> real)
    requires a in st
    requires forall i :: 0 <= i < |ids| ==> ids[i] in st
    requires forall i, j :: 0 <= i < j < |ids| ==> ids[i] != ids[j]
    ensures SumOver(st[a := n], ids, f)
         == SumOver(st, ids, f) + (if a in ids then f(n) - f(st[a]) else 0.0)
  {
    if ids != [] {
      SumOverUpdate(st, ids[1..], a, n, f);
      assert a in ids <==> a == ids[0] || a in ids[1..];
      if a == ids[0] {
        assert a !in ids[1..];
      }
    }
  }

  /**
   * Global positions are live: moving a node with `setPosition` shifts the
   * global position of exactly the nodes it is an ancestor of (itself
   * included) by the same amount, with no update step.
   */
  lemma MoveShiftsDescendants(st: Store, a: NodeId, x: real, y: real, id: NodeId)
    requires a in st && RootedIn(st, id)
    ensures RootedIn(SetPosition(st, a, x, y), id)
    ensures Gx(SetPosition(st, a, x, y), id)
         == Gx(st, id) + (if a in Ancestry(st, id) then x - st[a].x else 0.0)
    ensures Gy(SetPosition(st, a, x, y), id)
         == Gy(st, id) + (if a in Ancestry(st, id) then y - st[a].y else 0.0)
  {
    var st2 := SetPosition(st, a, x, y);
    ChainDependsOnLinks(st, st2, id);
    var chain := Ancestry(st, id);
    GlobalIsChainSum(st, id, XOf);
    GlobalIsChainSum(st2, id, XOf);
    GlobalIsChainSum(st, id, YOf);
    GlobalIsChainSum(st2, id, YOf);
    SumOverUpdate(st, chain, a, st2[a], XOf);
    SumOverUpdate(st, chain, a, st2[a], YOf);
  }

  /** A store contained in another, with the same node values. */
  ghost predicate SubStore(sub: Store, st: Store) {
    sub.Keys <= st.Keys && forall k :: k in sub ==> sub[k] == st[k]
  }

  lemma {:induction false} GlobalSumInSuperStore(sub: Store, st: Store, id: NodeId, f: Node -> real)
    requires SubStore(sub, st) && RootedIn(sub, id)
    ensures RootedIn(st, id) && GlobalSum(st, id, f) == GlobalSum(sub, id, f)
    decreases sub.Keys
  {
    match sub[id].parent
    case None =>
    case Some(p) =>
      assert SubStore(sub - {id}, st - {id});
      GlobalSumInSuperStore(sub - {id}, st - {id}, p, f);
  }

  /**
   * `gx` read on the live tree: a node's global x is its local x plus its
   * parent's global x in the same store (and likewise for y).
   */
  lemma GlobalThroughParent(st: Store, id: NodeId)
    requires RootedIn(st, id) && st[id].parent.Some?
    ensures RootedIn(st, st[id].parent.value)
    ensures Gx(st, id) == st[id].x + Gx(st, st[id].parent.value)
    ensures Gy(st, id) == st[id].y + Gy(st, st[id].parent.value)
  {
    var p := st[id].parent.value;
    GlobalSumInSuperStore(st - {id}, st, p, XOf);
    GlobalSumInSuperStore(st - {id}, st, p, YOf);
  }

  /** `globalBounds`: the corner fields hold the far corner, not the size. */
  function GlobalBounds(st: Store, id: NodeId): (b: Bounds)
    requires RootedIn(st, id)
    ensures b.x == Gx(st, id) && b.y == Gy(st, id)
    ensures b.width - b.x == st[id].width && b.height - b.y == st[id].height
  {
    var gx := Gx(st, id);
    var gy := Gy(st, id);
    Bounds(gx, gy, gx + st[id].width, gy + st[id].height)
  }

  /**
   * `globalBounds` is `localBounds` moved by the global position in all four
   * fields, so the size fields of the local box turn into the far corner.
   */
  lemma GlobalBoundsTranslatesLocal(st: Store, id: NodeId)
    requires RootedIn(st, id)
    ensures var l := LocalBounds(st[id]);
      var gx := Gx(st, id);
      var gy := Gy(st, id);
      GlobalBounds(st, id) == Bounds(l.x + gx, l.y + gy, l.width + gx, l.height + gy)
  {
  }
}

=== FILE: stablesort.dfy ===
/**
 * The stable ascending sort that `Array.prototype.sort` performs with a
 * comparator of the form `(a, b) => key(a) - key(b)` (stable since
 * ECMAScript 2019). Written as an insertion sort over sequences.
 */
module StableSort {

  /** Ascending by key. */
  ghost predicate SortedBy<T>(s: seq<T>, key: T -> int) {
    forall i, j :: 0 <= i < j < |s| ==> key(s[i]) <= key(s[j])
  }

  /** The elements of `s` whose key is `k`, in their order in `s`. */
  function WithKey<T>(s: seq<T>, key: T -> int, k: int): (r: seq<T>)
    ensures |r| <= |s|
  {
    if s == [] then []
    else (if key(s[0]) == k then [s[0]] else []) + WithKey(s[1..], key, k)
  }

  /** Stability: every group of equal keys keeps its relative order. */
  ghost predicate KeepsTies<T>(r: seq<T>, s: seq<T>, key: T -> int) {
    forall k :: WithKey(r, key, k) == WithKey(s, key, k)
  }

  lemma {:induction false} WithKeyAppend<T>(a: seq<T>, b: seq<T>, key: T -> int, k: int)
    ensures WithKey(a + b, key, k) == WithKey(a, key, k) + WithKey(b, key, k)
  {
    if a == [] {
      assert a + b == b;
    } else {
      var h := if key(a[0]) == k then [a[0]] else [];
      assert (a + b)[0] == a[0];
      assert (a + b)[1..] == a[1..] + b;
      calc {
        WithKey(a + b, key, k);
        h + WithKey(a[1..] + b, key, k);
        { WithKeyAppend(a[1..], b, key, k); }
        h + (WithKey(a[1..], key, k) + WithKey(b, key, k));
        (h + WithKey(a[1..], key, k)) + WithKey(b, key, k);
      }
    }
  }

  lemma {:induction false} WithKeyNone<T>(s: seq<T>, key: T -> int, k: int)
    requires forall i :: 0 <= i < |s| ==> key(s[i]) != k
    ensures WithKey(s, key, k) == []
  {
    if s != [] {
      WithKeyNone(s[1..], key, k);
    }
  }

  /** The first position whose key exceeds `key(x)`, or `|s|`. */
  function InsertPos<T>(x: T, s: seq<T>, key: T -> int): (p: nat)
    ensures p <= |s|
    ensures forall i :: 0 <= i < p ==> key(s[i]) <= key(x)
    ensures p < |s| ==> key(s[p]) > key(x)
  {
    if s == [] || key(s[0]) > key(x) then 0
    else 1 + InsertPos(x, s[1..], key)
  }

  /** Inserts `x` after every leading element whose key is at most `key(x)`. */
  function Insert<T>(x: T, s: seq<T>, key: T -> int): (r: seq<T>)
    ensures multiset(r) == multiset(s) + multiset{x}
    ensures |r| == |s| + 1
  {
    var p := InsertPos(x, s, key);
    assert s == s[..p] + s[p..];
    s[..p] + [x] + s[p..]
  }

  /** Where each element of `Insert(x, s, key)` comes from. */
  lemma InsertIndices<T>(x: T, s: seq<T>, key: T -> int)
    ensures var p := InsertPos(x, s, key);
      var r := Insert(x, s, key);
      && (forall i :: 0 <= i < p ==> r[i] == s[i])
      && r[p] == x
      && (forall i :: p < i < |r| ==> r[i] == s[i - 1])
  {
  }

  lemma InsertKeepsOrder<T>(x: T, s: seq<T>, key: T -> int)
    requires SortedBy(s, key)
    ensures SortedBy(Insert(x, s, key), key)
  {
    var p := InsertPos(x, s, key);
    var r := Insert(x, s, key);
    InsertIndices(x, s, key);
    forall i, j | 0 <= i < j < |r|
      ensures key(r[i]) <= key(r[j])
    {
      var a := if i < p then s[i] else if i == p then x else s[i - 1];
      var b := if j < p then s[j] else if j == p then x else s[j - 1];
      assert r[i] == a && r[j] == b;
      if i < p && j < p {
        assert key(s[i]) <= key(s[j]);
      } else if i < p && j > p {
        assert key(s[i]) <= key(s[j - 1]);
      } else if i == p {
        assert key(x) < key(s[p]) <= key(s[j - 1]);
      } else if i > p {
        assert key(s[i - 1]) <= key(s[j - 1]);
      }
    }
  }

  /** Everything behind the insertion point has a larger key than `x` (true when `s` is sorted). */
  lemma BehindInsertPos<T>(x: T, s: seq<T>, key: T -> int)
    requires SortedBy(s, key)
    ensures forall i :: InsertPos(x, s, key) <= i < |s| ==> key(s[i]) > key(x)
  {
    var p := InsertPos(x, s, key);
    forall i | p <= i < |s|
      ensures key(s[i]) > key(x)
    {
      assert key(s[p]) <= key(s[i]);
    }
  }

  lemma WithKeyAround<T>(front: seq<T>, x: T, back: seq<T>, key: T -> int, k: int)
    ensures WithKey(front + [x] + back, key, k)
         == WithKey(front, key, k) + (if key(x) == k then [x] else []) + WithKey(back, key, k)
  {
    WithKeyAppend(front + [x], back, key, k);
    WithKeyAppend(front, [x], key, k);
    assert [x][1..] == [];
  }

  /** Moving an empty piece: `a + b + c == a + c + b` when `b` or `c` is empty. */
  lemma SwapEmpty<T>(a: seq<T>, b: seq<T>, c: seq<T>)
    requires b == [] || c == []
    ensures a + b + c == a + c + b
  {
  }

  /** `Insert` cuts `s` at the insertion point and puts `x` in the gap. */
  lemma InsertPieces<T>(x: T, s: seq<T>, key: T -> int)
    ensures var p := InsertPos(x, s, key);
      && Insert(x, s, key) == s[..p] + [x] + s[p..]
      && s == s[..p] + s[p..]
  {
  }

  /** The keys behind the insertion point, read off the back piece. */
  lemma BackPiece<T>(x: T, s: seq<T>, key: T -> int)
    requires forall i :: InsertPos(x, s, key) <= i < |s| ==> key(s[i]) > key(x)
    ensures forall i :: 0 <= i < |s[InsertPos(x, s, key)..]| ==> key(s[InsertPos(x, s, key)..][i]) > key(x)
  {
    var p := InsertPos(x, s, key);
    assert forall i :: 0 <= i < |s[p..]| ==> s[p..][i] == s[p + i];
  }

  lemma InsertKeepsTies<T>(x: T, s: seq<T>, key: T -> int, k: int)
    requires forall i :: InsertPos(x, s, key) <= i < |s| ==> key(s[i]) > key(x)
    ensures WithKey(Insert(x, s, key), key, k)
         == WithKey(s, key, k) + (if key(x) == k then [x] else [])
  {
    var p := InsertPos(x, s, key);
    var front, back := s[..p], s[p..];
    InsertPieces(x, s, key);
    WithKeyAround(front, x, back, key, k);
    WithKeyAppend(front, back, key, k);
    if key(x) == k {
      BackPiece(x, s, key);
      WithKeyNone(back, key, k);
    }
    SwapEmpty(WithKey(front, key, k), if key(x) == k then [x] else [], WithKey(back, key, k));
  }

  /** The stable sort itself: insert each element, last one last. */
  function SortByKey<T>(s: seq<T>, key: T -> int): (r: seq<T>)
    ensures multiset(r) == multiset(s)
    ensures |r| == |s|
  {
    if s == [] then []
    else
      assert s == s[..|s| - 1] + [s[|s| - 1]];
      Insert(s[|s| - 1], SortByKey(s[..|s| - 1], key), key)
  }

  lemma {:induction false} SortByKeySorted<T>(s: seq<T>, key: T -> int)
    ensures SortedBy(SortByKey(s, key), key)
  {
    if s != [] {
      var init := s[..|s| - 1];
      SortByKeySorted(init, key);
      InsertKeepsOrder(s[|s| - 1], SortByKey(init, key), key);
    }
  }

  lemma {:induction false} SortByKeyTies<T>(s: seq<T>, key: T -> int, k: int)
    ensures WithKey(SortByKey(s, key), key, k) == WithKey(s, key, k)
  {
    if s != [] {
      var init, last := s[..|s| - 1], s[|s| - 1];
      var sorted := SortByKey(init, key);
      var xs: seq<T> := if key(last) == k then [last] else [];
      assert SortByKey(s, key) == Insert(last, sorted, key);
      assert WithKey(Insert(last, sorted, key), key, k) == WithKey(sorted, key, k) + xs by {
        SortByKeySorted(init, key);
        BehindInsertPos(last, sorted, key);
        InsertKeepsTies(last, sorted, key, k);
      }
      assert WithKey(sorted, key, k) == WithKey(init, key, k) by {
        SortByKeyTies(init, key, k);
      }
      assert WithKey(s, key, k) == WithKey(init, key, k) + xs by {
        SplitLast(s);
        WithKeySnoc(init, last, key, k);
      }
    }
  }

  lemma SplitLast<T>(s: seq<T>)
    requires s != []
    ensures s == s[..|s| - 1] + [s[|s| - 1]]
  {
  }

  /**
   * The sort yields an ascending permutation in which elements with equal
   * keys keep their original relative order.
   */
  lemma SortByKeyCorrect<T>(s: seq<T>, key: T -> int)
    ensures SortedBy(SortByKey(s, key), key)
    ensures multiset(SortByKey(s, key)) == multiset(s)
    ensures KeepsTies(SortByKey(s, key), s, key)
  {
    SortByKeySorted(s, key);
    forall k
      ensures WithKey(SortByKey(s, key), key, k) == WithKey(s, key, k)
    {
      SortByKeyTies(s, key, k);
    }
  }

  lemma {:induction false} WithKeyMember<T>(s: seq<T>, key: T -> int, k: int, z: T)
    ensures z in WithKey(s, key, k) <==> z in s && key(z) == k
  {
    if s != [] {
      WithKeyMember(s[1..], key, k, z);
      assert s == [s[0]] + s[1..];
    }
  }

  lemma WithKeySnoc<T>(s: seq<T>, z: T, key: T -> int, k: int)
    ensures WithKey(s + [z], key, k) == WithKey(s, key, k) + (if key(z) == k then [z] else [])
  {
    WithKeyAppend(s, [z], key, k);
    assert [z][1..] == [];
  }

  /** Where the largest key of an ascending sequence is: at its end. */
  lemma LastIsLargest<T>(s: seq<T>, key: T -> int, z: T)
    requires SortedBy(s, key) && z in s
    ensures key(z) <= key(s[|s| - 1])
  {
    var p :| 0 <= p < |s| && s[p] == z;
    if p < |s| - 1 {
      assert key(s[p]) <= key(s[|s| - 1]);
    }
  }

  /**
   * A stable sort has exactly one possible result: two ascending
   * sequences with the same elements per key, in the same order, are
   * equal. So any stable sorting algorithm agrees with `SortByKey`.
   */
  lemma {:induction false} StableSortUnique<T>(r1: seq<T>, r2: seq<T>, key: T -> int)
    requires SortedBy(r1, key) && SortedBy(r2, key) && KeepsTies(r1, r2, key)
    ensures r1 == r2
    decreases |r1| + |r2|
  {
    if r1 == [] && r2 != [] {
      var y := r2[|r2| - 1];
      WithKeyMember(r2, key, key(y), y);
    } else if r1 != [] && r2 == [] {
      var x := r1[|r1| - 1];
      WithKeyMember(r1, key, key(x), x);
    } else if r1 != [] {
      PeelLast(r1, r2, key);
      var i1, i2 := r1[..|r1| - 1], r2[..|r2| - 1];
      assert SortedBy(i1, key) && SortedBy(i2, key);
      StableSortUnique(i1, i2, key);
      assert r1 == i1 + [r1[|r1| - 1]] && r2 == i2 + [r2[|r2| - 1]];
    }
  }

  /** Two such sequences end with the same element, and agree per key on what precedes it. */
  lemma PeelLast<T>(r1: seq<T>, r2: seq<T>, key: T -> int)
    requires r1 != [] && r2 != []
    requires SortedBy(r1, key) && SortedBy(r2, key) && KeepsTies(r1, r2, key)
    ensures r1[|r1| - 1] == r2[|r2| - 1]
    ensures KeepsTies(r1[..|r1| - 1], r2[..|r2| - 1], key)
  {
    var x, y := r1[|r1| - 1], r2[|r2| - 1];
    var i1, i2 := r1[..|r1| - 1], r2[..|r2| - 1];
    assert r1 == i1 + [x] && r2 == i2 + [y];
    WithKeyMember(r1, key, key(x), x);
    WithKeyMember(r2, key, key(x), x);
    LastIsLargest(r2, key, x);
    WithKeyMember(r2, key, key(y), y);
    WithKeyMember(r1, key, key(y), y);
    LastIsLargest(r1, key, y);
    WithKeySnoc(i1, x, key, key(x));
    WithKeySnoc(i2, y, key, key(x));
    SnocInjective(WithKey(i1, key, key(x)), x, WithKey(i2, key, key(x)), y);
    forall k
      ensures WithKey(i1, key, k) == WithKey(i2, key, k)
    {
      WithKeySnoc(i1, x, key, k);
      WithKeySnoc(i2, y, key, k);
      if k != key(x) {
        assert key(y) == key(x);
        assert WithKey(r1, key, k) == WithKey(r2, key, k);
        var w1, w2 := WithKey(i1, key, k), WithKey(i2, key, k);
        assert WithKey(r1, key, k) == w1 + [] == w1;
        assert WithKey(r2, key, k) == w2 + [] == w2;
      } else {
        assert WithKey(i1, key, key(x)) == WithKey(i2, key, key(x));
      }
    }
  }

  lemma SnocInjective<T>(a: seq<T>, x: T, b: seq<T>, y: T)
    requires a + [x] == b + [y]
    ensures a == b && x == y
  {
    assert |a| == |b|;
    assert a == (a + [x])[..|a|] && b == (b + [y])[..|b|];
    assert x == (a + [x])[|a|] && y == (b + [y])[|b|];
  }
}

=== FILE: wrappers.dfy ===
/** Small failure-carrying datatypes shared by the scene graph and the loader. */
module Wrappers {

  /** A value that may be absent (JavaScript `undefined`). */
  datatype Option<+T> = None | Some(value: T)

  /** The outcome of an operation that can throw: either the new value or the error thrown. */
  datatype Result<+T, +E> = Ok(value: T) | Err(error: E)
}
